=== FILE: README.md ===
# iro.js colour value, modelled in Dafny

This project models the colour module of the iro.js colour picker,
`src/modules/color.js`. The module has four parts.

- **Conversion kernel.** `hsv2Rgb`, `rgb2Hsv`, `hsv2Hsl` and `hsl2Hsv` (`kernel.dfy`).
- **Text codec.** `rgb2Str` and `hsl2Str` write the `rgb(...)` and `hsl(...)` forms. `parseColorStr`, `parseRgbStr` and `parseHslStr` read them back (`text.dfy`).
- **Hex codec.** `rgb2Hex` and `parseHexStr` (`hex.dfy`).
- **The `color` value.** It stores an hsv object. Its accessors convert to and from rgb, hsl and the three string forms. The `set` dispatcher, the constructor, `clone`, `setChannel`, `compare`, and the free and instance `mix`, `lighten` and `darken` sit on top of them (`color.dfy`, with the free helpers `clamp`, `compareObjs` and the mixing arithmetic in `algebra.dfy`).

JavaScript values that reach the channels are modelled as `Val`: `undefined`, `NaN` or an exact real number (`channels.dfy`). Plain objects are maps from property names to `Val`.

`Math.round` is `floor(x + 0.5)` over exact reals. JavaScript's truncating `%` is written out. The bit operators of the hex codec become integer arithmetic, with ToInt32 made explicit.

A colour is an immutable `Color` record. It holds the stored value (None when it is `undefined`), whether a change hook is registered, and the change records the hook has been called with. Every operation maps the old colour to the new one. None in a result stands for the TypeError the source throws.

The instance `lighten` and `darken` (src/modules/color.js:386-396) call the free functions on the instance. In the model they are `Lighten(Instance(c), amount)` and `Darken(Instance(c), amount)`.

The model follows the code, including where it does something its comments do not describe. The two exceptions are the defects listed under "## Findings": the instance branch of `set` and the `hslString` setter are modelled as evidently intended, and their as-written forms are modelled alongside (see "## Left out"). Elsewhere:

- A mix weight of 0 gives an even mix, although the comment on the weight (src/modules/color.js:244) says "closer to 0 = more color1". `weight / 100 || 0.5` treats 0 as missing.
- `hsv2Rgb` wraps only some negative hues. JavaScript's `%` keeps the sign, so most negative sectors match no `switch` case and every channel is NaN. A hue in [-360k, -360k + 60) for a whole k >= 1 has a sector that is a multiple of 6, so `i % 6` is (-)0 and matches `case 0`. It then reads as the hue h + 360k: -330 gives the colour of 30, while -300 and -30 give NaN (`Kernel.HsvToRgbNegativeHue`, proved for k = 1).
- `rgb2Hsv` can return a hue of 360: a hue just below 360 rounds up.
- Converting rgb to hsv and back can miss a channel by more than one. rgb(255, 2, 0) has a hue of about 0.47 degrees, which rounds to 0, and comes back as rgb(255, 0, 0): green is off by two (`Kernel.RgbHsvRoundTripOffByTwo`).
- `hsl2Hsv` has no guard for `l + s == 0`: it divides 0 by 0, and the saturation is NaN.
- `parseHexStr` never fails. A string with no hex digits reads as black.

## Model

| member | source | states |
|---|---|---|
| Kernel.JsRem6 | src/modules/color.js:19 | `i % 6` truncates: the remainder lies strictly between -6 and 6, has the sign of `i`, and differs from `i` by a multiple of 6 |
| Kernel.Round | src/modules/color.js:27 | `Math.round` lands within one half of its argument |
| Kernel.HsvToRgb | src/modules/color.js:11-28 | a missing or NaN hue makes every channel NaN; a non-negative hue with numeric s and v gives three numbers |
| Kernel.HsvToRgbInRange | src/modules/color.js:11-28 | a hue in [0, 360) with s and v in [0, 100] gives three whole channels in [0, 255] |
| Kernel.HsvToRgbGray | src/modules/color.js:11-28 | zero saturation gives r = g = b, whatever the hue |
| Kernel.HsvToRgbNegativeHue | src/modules/color.js:11-28 | a hue in [-300, 0) matches no `switch` case and gives NaN in every channel; a hue in [-360, -300) gives the same channels as h + 360 |
| Kernel.RgbToHsv | src/modules/color.js:35-56 | a non-number channel makes all of h, s and v NaN; numeric channels give numbers |
| Kernel.RgbToHsvGray | src/modules/color.js:44-45 | a gray (r = g = b) has hue 0 and saturation 0 |
| Kernel.RgbToHsvZeroMax | src/modules/color.js:52-54 | black (max 0) has saturation 0 and value 0 |
| Kernel.RgbToHsvInRange | src/modules/color.js:35-56 | channels in [0, 255] give h in [0, 360] (360 included) and s, v in [0, 100] |
| Kernel.RgbHsvRoundTripOffByTwo | src/modules/color.js:11-56 | rgb2Hsv then hsv2Rgb is not within one of the start: rgb(255, 2, 0) gives hsv(0, 100, 100), which gives rgb(255, 0, 0) |
| Kernel.HsvToHsl | src/modules/color.js:63-73 | the hue passes through; without numeric s and v the saturation falls back to 0 through `\|\| 0` and the lightness is NaN |
| Kernel.HsvToHslInRange | src/modules/color.js:63-73 | s and v in [0, 100] give s and l in [0, 100] |
| Kernel.HslToHsv | src/modules/color.js:80-90 | the hue passes through; without numeric s and l both s and v are NaN |
| Kernel.HslToHsvInRange | src/modules/color.js:80-90 | s and l in [0, 100] give v in [0, 100]; the saturation is a number in [0, 100] exactly when l > 0, and NaN for black |
| Kernel.HsvHslRoundTrip | src/modules/color.js:63-90 | hsl2Hsv undoes hsv2Hsl for whole s and v in [0, 100] with v > 0, when hsv2Hsl's percentages come out whole so that nothing is rounded |
| Kernel.HsvHslRoundTripBlack | src/modules/color.js:63-90 | for black (v = 0), hsv2Hsl then hsl2Hsv keeps h and v, but the saturation comes back NaN |
| Hex.RgbToHex | src/modules/color.js:115-133 | the text is `#` and lower-case hex digits, 4 characters long when every channel is a multiple of 17 and 7 otherwise |
| Hex.ParseHexStr | src/modules/color.js:188-206 | every channel read is a byte, for any input; a 3-character body is read as shorthand |
| Hex.RemoveFirst | src/modules/color.js:190 | `replace("#", "")` returns the text unchanged when it has no '#', and otherwise removes exactly the first '#': the text before it has no '#' and the text after it is kept |
| Hex.Packed | src/modules/color.js:128 | the packed integer fits in 12 bits for shorthand and in 24 bits otherwise |
| Hex.ToHex | src/modules/color.js:130 | `toString(16)` writes at least one lower-case hex digit |
| Hex.ToHexValue | src/modules/color.js:130 | the hex numeral written for n denotes n |
| Hex.ToHexLength | src/modules/color.js:130-132 | a number below 16^k is written in at most k digits, so the padding length is never negative |
| Hex.Zeros | src/modules/color.js:132 | `new Array(k + 1).join("0")` is k zero digits |
| Hex.ZerosValue | src/modules/color.js:132 | zero padding in front of a numeral does not change its value |
| Hex.ParseIntHex | src/modules/color.js:192 | `parseInt("0x" + hex)` is NaN exactly when the text does not start with a hex digit |
| Hex.ParsePadded | src/modules/color.js:192 | parseInt reads a zero-padded numeral back as its value |
| Hex.Int32 | src/modules/color.js:202-204 | ToInt32 lands in the signed 32-bit range, leaves a non-negative 31-bit number alone, and differs from its argument by a multiple of 2^32 |
| Hex.HexRoundTrip | src/modules/color.js:188-206 | parseHexStr reads back every byte triple rgb2Hex writes |
| Hex.ShorthandDigits | src/modules/color.js:193-205 | a 3-digit hex body gives each channel as its digit times 17 |
| Hex.HexParseExample | src/modules/color.js:188-206 | `#0f0` reads as (0, 255, 0) |
| Hex.HexWriteExample | src/modules/color.js:115-133 | (255, 0, 0) is written `#f00` |
| Text.RgbToStr | src/modules/color.js:97-99 | the text is `rgb...)`, with the `a` of `rgba` exactly when the alpha is truthy |
| Text.HslToStr | src/modules/color.js:106-108 | the text is `hsl...)`, with the `a` of `hsla` exactly when the alpha is truthy |
| Text.AlphaWrittenIffTruthy | src/modules/color.js:97-108 | a falsy alpha (0, NaN, undefined) writes the same text as no alpha; a truthy one ends the text with `, a)` |
| Text.Show | src/modules/color.js:98 | a number's text starts with '-' exactly when the number is negative, and with a digit otherwise |
| Text.ShowParseFloat | src/modules/color.js:107 | parseFloat reads the text of a whole non-negative number back as that number, and finds no number in `undefined` or `NaN` |
| Text.ParseFloat | src/modules/color.js:151 | parseFloat succeeds exactly when the text starts with a digit or with '.' and a digit, and the value is never negative |
| Text.ParseFloatDigits | src/modules/color.js:151 | a string of digits alone reads as its decimal value |
| Text.AlphaValue | src/modules/color.js:151 | `parseFloat(...) \|\| undefined` is either undefined or a truthy number |
| Text.ParseColorStr | src/modules/color.js:141-153 | a successful read has a non-empty name that starts the text and contains no '(' and no character `\s` matches (the `(\S+)` group), and an alpha that is undefined or truthy |
| Text.SpaceBeforeParenUnreadable | src/modules/color.js:142 | a text with any character `\s` matches before its first '(' is unreadable, because the name must be a whitespace-free run |
| Text.NoBreakSpaceBeforeName | src/modules/color.js:142 | a no-break space before the '(' is whitespace, as it is for `\S`: `x\u00A0rgb(1, 2, 3)` is unreadable in the model, where the regex takes the name after the space |
| Text.RgbTextReads | src/modules/color.js:141-153 | parseColorStr reads rgb2Str's text of whole channels back as the name, the three channels and the alpha's magnitude |
| Text.HslTextReads | src/modules/color.js:141-153 | parseColorStr reads hsl2Str's text back, and the `%` values scaled by 100 / 100 are the channels written |
| Text.RgbTextRoundTrip | src/modules/color.js:160-167 | parseRgbStr inverts rgb2Str on whole non-negative channels, whatever the alpha |
| Text.ParseRgbStr | src/modules/color.js:160-167 | parseRgbStr succeeds exactly when parseColorStr reads the text, and takes r, g and b from its three channel slots (`v1`, `v2`, `v3`), dropping the alpha; its partner Text.RgbTextRoundTrip shows it inverts rgb2Str |
| Text.ParseHslStr | src/modules/color.js:174-181 | parseHslStr as written: a successful read has numeric h and s |
| Text.ParseHslShift | src/modules/color.js:174-181 | as written, h gets the saturation, s the lightness, and l the alpha (undefined when there is none) |
| Text.ParseHslStrFixed | src/modules/color.js:174-181 | the corrected parser gives three numbers when it succeeds |
| Text.HslTextRoundTrip | src/modules/color.js:174-181 | the corrected parseHslStr inverts hsl2Str on whole channels |
| Algebra.Clamp | src/modules/color.js:224-226 | at or below min gives min; above min and at or above max gives max; NaN and undefined pass through |
| Algebra.ClampInRange | src/modules/color.js:224-226 | for min <= max, a clamped number lies in [min, max] |
| Algebra.ClampIdentity | src/modules/color.js:224-226 | a number already in [min, max] is returned unchanged |
| Algebra.ClampIdempotent | src/modules/color.js:224-226 | clamping twice is clamping once |
| Algebra.CompareObjs | src/modules/color.js:234-238 | the change record has exactly the keys of the first object |
| Algebra.CompareObjsMeaning | src/modules/color.js:234-238 | a key is flagged exactly when the values differ loosely; a key missing from b is flagged unless a holds undefined; an object compared with itself flags only its NaN values |
| Algebra.CompareObjsSymmetric | src/modules/color.js:234-238 | on the keys both objects have, the comparison does not depend on the order |
| Algebra.MixWeight | src/modules/color.js:250 | the weight used always lies in [0, 1] |
| Algebra.MixWeightCases | src/modules/color.js:250 | weights in (0, 100) are percentages, 100 or more gives 1, a negative weight 0, and 0, undefined or NaN give 0.5 |
| Algebra.MixChannel | src/modules/color.js:252-254 | a mixed channel is a number exactly when both channels mixed are |
| Algebra.MixRgb | src/modules/color.js:251-255 | each mixed channel is a number exactly when that channel is a number in both colours |
| Algebra.MixChannelBetween | src/modules/color.js:251-255 | a mixed whole channel lies between the two channels, and the weights 0 and 1 give exactly one of them |
| Algebra.MixRgbEnds | src/modules/color.js:247-256 | a weight of 100 or more mixes to the second colour, a negative one to the first, and every channel stays between the two |
| Algebra.ShiftValue | src/modules/color.js:267 | lighten's new value `clamp(v + amount, 0, 100)` is a number in [0, 100] for a numeric v, and NaN otherwise |
| Algebra.ShiftValueInverse | src/modules/color.js:264-284 | within [0, 100], darkening by an amount undoes lightening by it |
| ColorValue.Backfill | src/modules/color.js:411-413 | the stored object has the keys of both objects, the new object's values, and the old values where the new object lacks the key |
| ColorValue.SetHsv | src/modules/color.js:406-421 | without a hook the object is stored as given and nothing is logged; with one the keys are the union; at most one hook call is added |
| ColorValue.HookFiresIffChanged | src/modules/color.js:406-421 | with a hook the back-filled value is stored, and the hook is called once, with the change record, exactly when h, s or v changed |
| ColorValue.HookSilentOnSameValues | src/modules/color.js:406-421 | setting a hooked colour to the values it holds, none NaN, does not call the hook |
| ColorValue.HookAlwaysFiresOnNaN | src/modules/color.js:414-418 | a NaN hue makes every set of a hooked colour call the hook |
| ColorValue.GetHsv | src/modules/color.js:401-405 | the getter returns a fresh object with exactly the keys h, s and v, holding the stored channels |
| ColorValue.SetHsvThenGet | src/modules/color.js:400-422 | reading hsv after setting it gives the channels set, back-filled from the old value when hooked |
| ColorValue.GetRgb | src/modules/color.js:425-427 | the rgb getter throws exactly when the value is undefined, and a non-number hue reads as all-NaN |
| ColorValue.GetRgbBytes | src/modules/color.js:425-427 | a stored hsv in range reads as three bytes of rgb |
| ColorValue.GetHsl | src/modules/color.js:433-435 | the hsl getter passes the stored hue through |
| ColorValue.SetRgb | src/modules/color.js:428-430 | the rgb setter keeps the hook; byte-range channels store h in [0, 360] and s, v in [0, 100], and a missing or non-number channel stores NaN in all three |
| ColorValue.SetHsl | src/modules/color.js:436-438 | the hsl setter keeps the hook and stores the object's hue as given; in-range s and l store v in [0, 100] and a number s exactly when l > 0; a missing s or l stores NaN s and v |
| ColorValue.HslAccessorRoundTrip | src/modules/color.js:433-438 | setting a colour from another's hsl, directly or through `set`, stores that colour's hsv again, when v > 0 and hsv2Hsl rounds nothing |
| ColorValue.HslAccessorBlack | src/modules/color.js:433-438 | the hsl round trip of a black colour keeps h and v but stores NaN for s, so it differs from the original |
| ColorValue.GetRgbString | src/modules/color.js:441-443 | the rgbString getter never writes the `rgba` form |
| ColorValue.GetHslString | src/modules/color.js:457-459 | the hslString getter never writes the `hsla` form |
| ColorValue.GetHexString | src/modules/color.js:449-451 | the hexString getter writes 4 or 7 characters: '#' and lower-case hex digits |
| ColorValue.SetRgbString | src/modules/color.js:444-446 | the rgbString setter succeeds exactly when parseRgbStr reads the text |
| ColorValue.SetHslString | src/modules/color.js:460-462 | the hslString setter succeeds exactly when the corrected parseHslStr reads the text |
| ColorValue.SetHslStringAsWritten | src/modules/color.js:460-462 | as written, the hslString setter succeeds exactly when parseHslStr reads the text, keeps the hook, and always stores a number as the hue |
| ColorValue.HslStringAsWrittenShifts | src/modules/color.js:456-463 | as written, setting a colour from another's hslString stores that colour's hsl saturation as the hue and NaN for s and v |
| ColorValue.SetHexString | src/modules/color.js:452-454 | the hexString setter never throws and keeps the hook |
| ColorValue.RgbStringTransfers | src/modules/color.js:440-447 | setting a colour from another's rgbString is setting it from that colour's rgb |
| ColorValue.HexStringTransfers | src/modules/color.js:448-455 | setting a colour from another's hexString is setting it from that colour's rgb |
| ColorValue.HslStringTransfers | src/modules/color.js:456-463 | with the corrected parser, setting a colour from another's hslString is setting it from that colour's hsl |
| ColorValue.Set | src/modules/color.js:320-340 | `set`, with the corrected instance branch: `null` throws; an object without r, v and l keys, a string without a known prefix, and other values leave the colour as it is; the hook is kept |
| ColorValue.SetPrefersRgb | src/modules/color.js:324-330 | an object with both r and v keys is read as rgb |
| ColorValue.SetFromInstance | src/modules/color.js:320-323 | the corrected `set` from an instance fails exactly when its value is undefined, copies its h, s and v even over a hooked colour, and does what `set` from its hsv object does |
| ColorValue.SetRgbFormsAgree | src/modules/color.js:324-337 | `set` from an in-gamut colour's rgbString and from its rgb object give the same colour |
| ColorValue.SetHexFormAgrees | src/modules/color.js:324-337 | `set` from a colour's hexString and from its rgb object give the same colour |
| ColorValue.SetHslFormsAgree | src/modules/color.js:324-337 | `set` from a colour's hslString (read as intended) and from its hsl object give the same colour, when the hsl channels are whole |
| ColorValue.New | src/modules/color.js:290-296 | a new colour has no hook and no history, and `null` leaves the default value |
| ColorValue.Clone | src/modules/color.js:358-360 | the corrected clone succeeds exactly when the value is defined |
| ColorValue.CloneCopiesHsv | src/modules/color.js:358-360 | a clone reads back the same hsv, rgb and hsl, with no hook and no history |
| ColorValue.SetInstanceAsWritten | src/modules/color.js:322-323 | as written, set from an instance makes the value undefined, and throws for a hooked colour with a non-empty value |
| ColorValue.CloneAsWritten | src/modules/color.js:358-360 | as written, a clone's value is undefined |
| ColorValue.CloneAsWrittenUnreadable | src/modules/color.js:322-323 | as written, every getter throws on a clone, while the corrected clone reads back the original |
| ColorValue.SetChannel | src/modules/color.js:348-352 | setChannel throws exactly when the value is undefined |
| ColorValue.SetChannelOnlyChannel | src/modules/color.js:348-352 | on the hsv model, the named channel takes the new value and the other two keep theirs, with or without a hook |
| ColorValue.SetChannelHslHue | src/modules/color.js:348-352 | on the hsl model, setting the hue stores exactly that hue, because the hsl setter passes it through; the hook stays |
| ColorValue.Compare | src/modules/color.js:368-371 | the change record has exactly the model's three keys |
| ColorValue.CompareSelf | src/modules/color.js:368-371 | a colour compared with itself in hsv flags exactly its NaN channels |
| ColorValue.Mix | src/modules/color.js:247-256 | the mixed colour is a new colour with a value, no hook and no history |
| ColorValue.MixStoresMixedRgb | src/modules/color.js:247-256 | the mixture stores rgb2Hsv of the mixed channels; a weight of 100 or more gives the second colour's rgb, a negative weight the first's |
| ColorValue.MixInto | src/modules/color.js:378-380 | the instance mix fails exactly when the free mix does; afterwards this colour keeps its hook and reads back the mixture's h, s and v |
| ColorValue.MixIntoStoresMixture | src/modules/color.js:378-380 | mixing another colour in stores rgb2Hsv of the mixed rgb; with a hook, the hook is called once exactly when one of h, s and v changed, and without one nothing is logged |
| ColorValue.Lighten | src/modules/color.js:264-270 | lightening an instance throws exactly when its value is undefined |
| ColorValue.Darken | src/modules/color.js:278-284 | darkening an instance throws exactly when its value is undefined |
| ColorValue.LightenDarkenKeepHueSaturation | src/modules/color.js:264-284 | lighten and darken keep h and s, move v by the amount clamped to [0, 100], and keep the hook |
| ColorValue.LightenThenDarken | src/modules/color.js:264-284 | within range, darkening a lightened colour by the same amount restores its hsv |

## Left out

- IEEE-754 doubles. Channels are exact reals, so `Math.round` ties and rounding in products are not bit-exact.
- ±Infinity. It arises only from out-of-range channels in `hsv2Hsl` and `hsl2Hsv`, and is folded into NaN.
- Number-to-text conversion of non-whole numbers and of numbers from 10^21 on. Non-whole numbers are written with at most 20 decimals, where JavaScript writes the shortest digits that read back. Whole numbers are always written as plain numerals, where JavaScript switches to exponent notation from 10^21.
- Text.RgbTextRoundTrip: proved for whole non-negative channels only, because of how non-whole numbers are written.
- Text.HslTextRoundTrip: proved for whole non-negative channels only, for the same reason.
- Regular-expression search in `parseColorStr` (src/modules/color.js:142). The model reads strings where the name starts the text, there is a single '(', and the ')' ends the text right after the alpha. Text before the name, a second '(' and text after the ')' are reported as unreadable, where the unanchored regex could still match. This includes any whitespace `\s` matches before the '(', the non-ASCII ones (U+00A0, U+FEFF, U+2028 and the other ECMAScript white space and line terminators) among them. So is a '%' followed directly by a digit: the regex backtracks and lets the '%' serve as the separator, so `rgb(50%5, 0, 0)` reads as (50, 5, 0) in JavaScript.
- Hex.RgbToHex: requires byte channels. rgb2Hex on NaN, fractional or out-of-range channels goes through ToInt32 and an OR of overlapping bit fields, which is not modelled.
- ColorValue.GetHexString: requires the colour's rgb to be bytes, for the same reason.
- Kernel.HsvToRgbNegativeHue: proved for hues in [-360, 0) only; the same wrap for [-360k, -360k + 60) with k > 1 is not proved.
- Kernel.HsvHslRoundTrip: proved only where hsv2Hsl rounds nothing. The general round trip through the hsl accessor, off by at most one after rounding, is not proved.
- ColorValue.HslAccessorRoundTrip: proved only where hsv2Hsl rounds nothing, for the same reason as Kernel.HsvHslRoundTrip.
- Hex.ParseHexStr: `hex.length` counts UTF-16 code units, while the model counts characters. A 3-character body containing a character outside the Basic Multilingual Plane is shorthand in the model but not in JavaScript.
- ColorValue.Lighten: the amount is a number. The instance `lighten()` and `darken()` called without an amount compute `v + undefined`, which stores NaN for v; that call is not modelled.
- ColorValue.Set: the instance branch is the corrected `this.hsv = value.hsv`; as written it assigns `color.hsv`, which is undefined, and so stores undefined, or throws for a hooked colour with a non-empty value (ColorValue.SetInstanceAsWritten). ColorValue.New and ColorValue.Clone inherit it; the as-written clone is ColorValue.CloneAsWritten.
- ColorValue.SetHslString: uses the corrected parser. As written, an hsl text stores its saturation as the hue and NaN for s and v (ColorValue.HslStringAsWrittenShifts). ColorValue.Set and ColorValue.New, which pass `hsl...` strings to this setter, are affected the same way in the source.
- `parseInt` on hex text longer than 13 digits. JavaScript loses precision before ToInt32; the model reads it exactly.
- The hook callback itself: what it does, and re-entrant sets from inside it. Each call is recorded in the colour's log instead. How a hook gets registered is outside this module; the `hooked` field stands for it.
- Object identity and aliasing. The hooked `hsv` setter back-fills the caller's own object in place, and the free `lighten` and `darken` change an instance they are given. The model returns new values instead.
- `instanceof` (src/modules/color.js:214, 322). The `Instance` input variant stands for it. Arrays and other objects are plain records.
- Module wiring and static re-exports (src/modules/color.js:298-311, 466).
- Kernel.RgbHsvRoundTripOffByTwo: the rgb → hsv → rgb round trip through the `rgb` setter and getter is lossy by rounding, and no error bound is proved. The ±1 per channel one might expect does not hold: this lemma shows a channel off by two.

## Findings

| source | as written | input that shows it | evidently intended | confidence | as-written member | corrected member |
|---|---|---|---|---|---|---|
| src/modules/color.js:174-181 | `parseHslStr` reads `h`, `s` and `l` from slots 2, 3 and 4 of the parsed array; slot 1 is the first number | `hsl(120, 50%, 50%)` reads as h 50, s 50, l undefined | h, s and l from slots 1, 2 and 3 | high; not executed | Text.ParseHslShift | Text.HslTextRoundTrip |
| src/modules/color.js:460-462 | the `hslString` setter passes parseHslStr's shifted object to the `hsl` setter | setting from another colour's `hslString` stores its hsl saturation as the hue and NaN for s and v | the colour's hsl, read from slots 1, 2 and 3 | high; not executed | ColorValue.HslStringAsWrittenShifts | ColorValue.HslStringTransfers |
| src/modules/color.js:322-323 | the instance branch of `set` assigns `color.hsv`, a property of the constructor, which is undefined | `c.clone()` for any colour c: the clone's value is undefined and reading it throws | `this.hsv = value.hsv` | high; not executed | ColorValue.CloneAsWrittenUnreadable | ColorValue.CloneCopiesHsv |

=== FILE: algebra.dfy ===
/** The free helpers of src/modules/color.js that combine channel values:
    clamp, compareObjs and the arithmetic of mix, lighten and darken. */
module Algebra {
  import opened Channels
  import Kernel

  // ---------------------------------------------------------------------------
  // clamp

  /** clamp(value, min, max): `value <= min ? min : value >= max ? max : value`.
      Both comparisons are false for NaN and `undefined`, which pass through. */
  function Clamp(v: Val, lo: real, hi: real): (r: Val)
    ensures !v.Num? ==> r == v
    ensures v.Num? && v.x <= lo ==> r == Num(lo)
    ensures v.Num? && lo < v.x && hi <= v.x ==> r == Num(hi)
  {
    if v.Num? && v.x <= lo then Num(lo)
    else if v.Num? && v.x >= hi then Num(hi)
    else v
  }

  /** For an ordered range, a clamped number lies in it. */
  lemma ClampInRange(v: Val, lo: real, hi: real)
    requires lo <= hi && v.Num?
    ensures Clamp(v, lo, hi).Num? && lo <= Clamp(v, lo, hi).x <= hi
  {
  }

  /** A number already in the range is left alone. */
  lemma ClampIdentity(v: Val, lo: real, hi: real)
    requires v.Num? && lo <= v.x <= hi
    ensures Clamp(v, lo, hi) == v
  {
  }

  /** Clamping twice is clamping once. */
  lemma ClampIdempotent(v: Val, lo: real, hi: real)
    requires lo <= hi
    ensures Clamp(Clamp(v, lo, hi), lo, hi) == Clamp(v, lo, hi)
  {
  }

  // ---------------------------------------------------------------------------
  // compareObjs

  /** compareObjs(a, b): for every key of a, whether `b[key] != a[key]`. */
  function CompareObjs(a: Obj, b: Obj): (changes: map<string, bool>)
    ensures changes.Keys == a.Keys
  {
    map k | k in a :: LooseNe(Get(b, k), a[k])
  }

  /** The change record flags a key exactly when the values there differ in
      the loose sense; a key b lacks is flagged unless a holds `undefined`
      there. Comparing an object with itself flags only its NaN values. */
  lemma CompareObjsMeaning(a: Obj, b: Obj, k: string)
    requires k in a
    ensures CompareObjs(a, b)[k] <==> LooseNe(a[k], Get(b, k))
    ensures k !in b ==> (CompareObjs(a, b)[k] <==> a[k] != Undef)
    ensures CompareObjs(a, a)[k] <==> a[k] == NaN
  {
    LooseNeSymmetric(a[k], Get(b, k));
    LooseNeIrreflexiveUnlessNaN(a[k]);
  }

  /** On the keys both objects have, the comparison is symmetric. */
  lemma CompareObjsSymmetric(a: Obj, b: Obj, k: string)
    requires k in a && k in b
    ensures CompareObjs(a, b)[k] == CompareObjs(b, a)[k]
  {
    LooseNeSymmetric(a[k], b[k]);
  }

  // ---------------------------------------------------------------------------
  // mix, lighten, darken

  /** `x + amount` for a channel value: `undefined` and NaN give NaN. */
  function Add(x: Val, amount: real): (r: Val)
    ensures x.Num? <==> r.Num?
    ensures x.Num? ==> r.x - x.x == amount
  {
    if x.Num? then Num(x.x + amount) else NaN
  }

  /** The weight mix uses: `clamp(weight / 100 || 0.5, 0, 1)`. A weight of 0,
      `undefined` or NaN makes the quotient falsy and gives one half. */
  function MixWeight(weight: Val): (w: real)
    ensures 0.0 <= w <= 1.0
  {
    var q := if weight.Num? && weight.x != 0.0 then weight.x / 100.0 else 0.5;
    Clamp(Num(q), 0.0, 1.0).x
  }

  /** The weight as a function of the argument: a weight in (0, 100) is a
      percentage, 100 or more is all of the second colour, a negative weight
      all of the first, and a missing or zero weight an even mix. */
  lemma MixWeightCases(weight: Val)
    ensures weight.Num? && 0.0 < weight.x < 100.0 ==> MixWeight(weight) == weight.x / 100.0
    ensures weight.Num? && weight.x >= 100.0 ==> MixWeight(weight) == 1.0
    ensures weight.Num? && weight.x < 0.0 ==> MixWeight(weight) == 0.0
    ensures !Truthy(weight) ==> MixWeight(weight) == 0.5
  {
  }

  /** One mixed channel: `floor(a + (b - a) * w)`. */
  function MixChannel(a: Val, b: Val, w: real): (r: Val)
    ensures r.Num? <==> a.Num? && b.Num?
  {
    if a.Num? && b.Num? then Num((a.x + (b.x - a.x) * w).Floor as real) else NaN
  }

  lemma BetweenEnds(a: real, b: real, w: real)
    requires 0.0 <= w <= 1.0
    ensures Kernel.Min(a, b) <= a + (b - a) * w <= Kernel.Max(a, b)
  {
    if a <= b {
      Kernel.MulNonneg(b - a, w);
      Kernel.MulNonneg(b - a, 1.0 - w);
    } else {
      Kernel.MulNonneg(a - b, w);
      Kernel.MulNonneg(a - b, 1.0 - w);
    }
  }

  /** A mixed whole channel lies between the two channels it mixes, and the
      end weights give exactly one of them. */
  lemma MixChannelBetween(a: Val, b: Val, w: real)
    requires IsWholeNum(a) && IsWholeNum(b) && 0.0 <= w <= 1.0
    ensures MixChannel(a, b, w).Num?
    ensures Kernel.Min(a.x, b.x) <= MixChannel(a, b, w).x <= Kernel.Max(a.x, b.x)
    ensures w == 0.0 ==> MixChannel(a, b, w) == a
    ensures w == 1.0 ==> MixChannel(a, b, w) == b
  {
    var m := a.x + (b.x - a.x) * w;
    assert MixChannel(a, b, w) == Num(m.Floor as real);
    BetweenEnds(a.x, b.x, w);
    var lo := Kernel.Min(a.x, b.x);
    var hi := Kernel.Max(a.x, b.x);
    var l, h, f := lo.Floor, hi.Floor, m.Floor;
    assert l as real == lo && h as real == hi;
    assert f as real <= m < f as real + 1.0;
    assert l <= f <= h;
    if w == 0.0 {
      assert m == a.x;
    }
    if w == 1.0 {
      assert m == b.x;
    }
  }

  /** The three mixed channels of mix. */
  function MixRgb(c1: Rgb<Val>, c2: Rgb<Val>, weight: Val): (c: Rgb<Val>)
    ensures c.r.Num? <==> c1.r.Num? && c2.r.Num?
    ensures c.g.Num? <==> c1.g.Num? && c2.g.Num?
    ensures c.b.Num? <==> c1.b.Num? && c2.b.Num?
  {
    var w := MixWeight(weight);
    Rgb(MixChannel(c1.r, c2.r, w), MixChannel(c1.g, c2.g, w), MixChannel(c1.b, c2.b, w))
  }

  predicate WholeRgb(c: Rgb<Val>) {
    IsWholeNum(c.r) && IsWholeNum(c.g) && IsWholeNum(c.b)
  }

  /** Mixing whole colours: a weight of 100 or more gives the second colour,
      a negative weight the first, and every channel stays between the two. */
  lemma MixRgbEnds(c1: Rgb<Val>, c2: Rgb<Val>, weight: Val)
    requires WholeRgb(c1) && WholeRgb(c2)
    ensures weight.Num? && weight.x >= 100.0 ==> MixRgb(c1, c2, weight) == c2
    ensures weight.Num? && weight.x < 0.0 ==> MixRgb(c1, c2, weight) == c1
    ensures var c := MixRgb(c1, c2, weight);
            Kernel.Min(c1.r.x, c2.r.x) <= c.r.x <= Kernel.Max(c1.r.x, c2.r.x) &&
            Kernel.Min(c1.g.x, c2.g.x) <= c.g.x <= Kernel.Max(c1.g.x, c2.g.x) &&
            Kernel.Min(c1.b.x, c2.b.x) <= c.b.x <= Kernel.Max(c1.b.x, c2.b.x)
  {
    var w := MixWeight(weight);
    MixWeightCases(weight);
    MixChannelBetween(c1.r, c2.r, w);
    MixChannelBetween(c1.g, c2.g, w);
    MixChannelBetween(c1.b, c2.b, w);
  }

  /** The value channel lighten stores: `clamp(v + amount, 0, 100)`; darken
      is the same with `-amount`. */
  function ShiftValue(v: Val, amount: real): (r: Val)
    ensures v.Num? ==> r.Num? && 0.0 <= r.x <= 100.0
    ensures !v.Num? ==> r == NaN
  {
    Clamp(Add(v, amount), 0.0, 100.0)
  }

  /** Within the range, lightening by an amount and darkening by it again
      restores the value. */
  lemma ShiftValueInverse(v: Val, amount: real)
    requires v.Num? && 0.0 <= v.x <= 100.0 && 0.0 <= v.x + amount <= 100.0
    ensures ShiftValue(ShiftValue(v, amount), -amount) == v
  {
  }
}

=== FILE: channels.dfy ===
/** JavaScript channel values, plain objects and the three channel records of
    the colour library (src/modules/color.js). */
module Channels {

  /** The value a JavaScript property holds in this library: `undefined`
      (also what reading an absent key gives), `NaN`, or a finite number. */
  datatype Val = Undef | NaN | Num(x: real)

  /** A JavaScript plain object: property names to values. */
  type Obj = map<string, Val>

  /** Reading `o[k]`: an absent key reads as `undefined`. */
  function Get(o: Obj, k: string): (v: Val)
    ensures k !in o ==> v == Undef
    ensures k in o ==> v == o[k]
  {
    if k in o then o[k] else Undef
  }

  /** JavaScript's loose inequality `a != b` on channel values: NaN differs
      from everything (itself included), `undefined` equals only itself, and
      numbers compare by value. */
  predicate LooseNe(a: Val, b: Val) {
    match (a, b)
    case (Undef, Undef) => false
    case (Num(x), Num(y)) => x != y
    case _ => true
  }

  /** JavaScript truthiness of a channel value: only a non-zero number is truthy. */
  predicate Truthy(a: Val) {
    a.Num? && a.x != 0.0
  }

  lemma LooseNeSymmetric(a: Val, b: Val)
    ensures LooseNe(a, b) <==> LooseNe(b, a)
  {
  }

  /** A value differs from itself exactly when it is NaN. */
  lemma LooseNeIrreflexiveUnlessNaN(a: Val)
    ensures LooseNe(a, a) <==> a == NaN
  {
  }

  datatype Hsv<T> = Hsv(h: T, s: T, v: T)
  datatype Rgb<T> = Rgb(r: T, g: T, b: T)
  datatype Hsl<T> = Hsl(h: T, s: T, l: T)

  /** Every channel NaN: what the conversions return when a NaN poisons all of them. */
  const RgbNaN: Rgb<Val> := Rgb(NaN, NaN, NaN)
  const HsvNaN: Hsv<Val> := Hsv(NaN, NaN, NaN)

  /** The object literals `{h, s, v}`, `{r, g, b}` and `{h, s, l}`. */
  function HsvObj(c: Hsv<Val>): (o: Obj)
    ensures o.Keys == {"h", "s", "v"}
    ensures o["h"] == c.h && o["s"] == c.s && o["v"] == c.v
  {
    map["h" := c.h, "s" := c.s, "v" := c.v]
  }

  function RgbObj(c: Rgb<Val>): (o: Obj)
    ensures o.Keys == {"r", "g", "b"}
    ensures o["r"] == c.r && o["g"] == c.g && o["b"] == c.b
  {
    map["r" := c.r, "g" := c.g, "b" := c.b]
  }

  function HslObj(c: Hsl<Val>): (o: Obj)
    ensures o.Keys == {"h", "s", "l"}
    ensures o["h"] == c.h && o["s"] == c.s && o["l"] == c.l
  {
    map["h" := c.h, "s" := c.s, "l" := c.l]
  }

  /** Reading `o.h, o.s, o.v` (and likewise for the other shapes) out of an object. */
  function HsvOf(o: Obj): Hsv<Val> {
    Hsv(Get(o, "h"), Get(o, "s"), Get(o, "v"))
  }

  function RgbOf(o: Obj): Rgb<Val> {
    Rgb(Get(o, "r"), Get(o, "g"), Get(o, "b"))
  }

  function HslOf(o: Obj): Hsl<Val> {
    Hsl(Get(o, "h"), Get(o, "s"), Get(o, "l"))
  }

  /** Reading back an object literal gives the record it was built from. */
  lemma ObjRoundTrips(a: Hsv<Val>, b: Rgb<Val>, c: Hsl<Val>)
    ensures HsvOf(HsvObj(a)) == a
    ensures RgbOf(RgbObj(b)) == b
    ensures HslOf(HslObj(c)) == c
  {
  }

  /** A number with no fractional part. */
  predicate IsWholeReal(x: real) {
    x.Floor as real == x
  }

  /** A channel holding a whole number. */
  predicate IsWholeNum(v: Val) {
    v.Num? && IsWholeReal(v.x)
  }

  /** `s.indexOf(c)` when `c` occurs in `s`: the first position at which it
      occurs. */
  function IndexOf(s: string, c: char): (i: nat)
    requires c in s
    ensures i < |s| && s[i] == c && c !in s[..i]
  {
    if s[0] == c then 0
    else
      var k := IndexOf(s[1..], c);
      assert s[..k + 1] == [s[0]] + s[1..][..k];
      k + 1
  }
}

=== FILE: color.dfy ===
/** The colour value of src/modules/color.js: a stored hsv object, the
    accessors that convert to and from rgb, hsl and the three string forms,
    the `set` dispatcher, and the helpers built on them (clone, compare,
    setChannel, mix, lighten, darken). Every operation is a function from the
    old colour to the new one; None stands for a TypeError the source throws. */
module ColorValue {
  import opened Channels
  import opened Wrappers
  import Kernel
  import Hex
  import Text
  import Algebra

  /** A colour: its `_value` (None when it is `undefined`), whether a change
      hook (`_onChange`) is registered, and the change records the hook has
      been called with, oldest first. */
  datatype Color = Color(value: Option<Obj>, hooked: bool, log: seq<map<string, bool>>)

  /** What the constructor, `set`, `mix`, `lighten` and `darken` accept: a
      colour instance, a plain object, a string, `null`, or anything else
      (numbers, booleans, `undefined`), which they ignore. */
  datatype Input = Instance(other: Color) | Record(o: Obj) | Str(s: string) | Null | Other

  /** The colour models `setChannel` and `compare` name. */
  datatype Model = HsvModel | RgbModel | HslModel

  /** The value a new colour starts with: three undefined channels. */
  const DefaultValue: Obj := map["h" := Undef, "s" := Undef, "v" := Undef]

  /** A colour straight after the constructor's first two statements. */
  const Blank: Color := Color(Some(DefaultValue), false, [])

  // ---------------------------------------------------------------------------
  // The hsv accessor

  /** `changes.h || changes.s || changes.v`: an absent key reads as
      `undefined`, which is falsy. */
  predicate Fires(changes: map<string, bool>) {
    ("h" in changes && changes["h"]) || ("s" in changes && changes["s"]) || ("v" in changes && changes["v"])
  }

  /** The hooked setter's back-fill: every key of the old value the new one
      lacks is copied over; keys the new value has, even holding `undefined`,
      are kept. */
  function Backfill(prev: Obj, n: Obj): (merged: Obj)
    ensures merged.Keys == prev.Keys + n.Keys
    ensures forall k :: k in n ==> merged[k] == n[k]
    ensures forall k :: k in prev && k !in n ==> merged[k] == prev[k]
  {
    prev + n
  }

  /** The old value the hooked setter reads; a for-in loop over `undefined`
      visits nothing, like one over an empty object. */
  function OldValue(c: Color): Obj {
    if c.value.Some? then c.value.value else map[]
  }

  /** The `hsv` setter. Without a hook the object is stored as given. With
      one, it is back-filled from the old value, compared with it, stored,
      and the hook is called with the change record when h, s or v changed. */
  function SetHsv(c: Color, n: Obj): (r: Color)
    ensures r.hooked == c.hooked && r.value.Some?
    ensures !c.hooked ==> r.value == Some(n) && r.log == c.log
    ensures c.hooked ==> r.value.value.Keys == OldValue(c).Keys + n.Keys
    ensures |c.log| <= |r.log| <= |c.log| + 1 && r.log[..|c.log|] == c.log
  {
    if c.hooked then
      var prev := OldValue(c);
      var merged := Backfill(prev, n);
      var changes := Algebra.CompareObjs(prev, merged);
      Color(Some(merged), true, if Fires(changes) then c.log + [changes] else c.log)
    else
      Color(Some(n), false, c.log)
  }

  /** Whether setting n over prev changes channel ch as the hooked setter sees
      it: ch is a key of prev, and the back-filled value differs from the old
      one (a NaN always differs). */
  predicate ChannelChanged(prev: Obj, n: Obj, ch: string) {
    ch in prev && LooseNe(prev[ch], if ch in n then n[ch] else prev[ch])
  }

  /** With a hook, the stored value is the back-filled one, and the hook is
      called exactly once, with the change record, precisely when one of h, s
      and v changed; otherwise the log is untouched. */
  lemma HookFiresIffChanged(c: Color, n: Obj)
    requires c.hooked
    ensures var prev := OldValue(c);
            var r := SetHsv(c, n);
            var changed := ChannelChanged(prev, n, "h") || ChannelChanged(prev, n, "s") || ChannelChanged(prev, n, "v");
            r.value == Some(Backfill(prev, n)) &&
            (changed ==> r.log == c.log + [Algebra.CompareObjs(prev, Backfill(prev, n))]) &&
            (!changed ==> r.log == c.log)
  {
    var prev := OldValue(c);
    var merged := Backfill(prev, n);
    var changes := Algebra.CompareObjs(prev, merged);
    forall ch | ch in prev
      ensures changes[ch] == ChannelChanged(prev, n, ch)
    {
      Algebra.CompareObjsMeaning(prev, merged, ch);
    }
    assert Fires(changes) <==> ChannelChanged(prev, n, "h") || ChannelChanged(prev, n, "s") || ChannelChanged(prev, n, "v");
  }

  /** Setting a hooked colour to values it already holds, none of them NaN,
      does not call the hook. */
  lemma HookSilentOnSameValues(c: Color, n: Obj)
    requires c.hooked
    requires forall ch :: ch in OldValue(c) ==> OldValue(c)[ch] != NaN
    requires forall ch :: ch in n && ch in OldValue(c) ==> n[ch] == OldValue(c)[ch]
    ensures SetHsv(c, n).log == c.log
    ensures SetHsv(c, n).value == Some(OldValue(c) + n)
  {
    var prev := OldValue(c);
    forall ch | ch in prev ensures !ChannelChanged(prev, n, ch) {
      LooseNeIrreflexiveUnlessNaN(prev[ch]);
    }
    HookFiresIffChanged(c, n);
  }

  /** A NaN channel in a hooked colour makes every set call the hook, since
      NaN differs from itself. */
  lemma HookAlwaysFiresOnNaN(c: Color, n: Obj)
    requires c.hooked && c.value.Some? && Get(c.value.value, "h") == NaN
    requires "h" !in n || n["h"] == NaN
    ensures |SetHsv(c, n).log| == |c.log| + 1
  {
    HookFiresIffChanged(c, n);
    assert ChannelChanged(OldValue(c), n, "h");
  }

  /** The `hsv` getter: a fresh `{h, s, v}` copy of the stored value, so
      extra keys are dropped and editing the copy leaves the colour as it is.
      None is reading a channel of `undefined`. */
  function GetHsv(c: Color): (r: Option<Obj>)
    ensures r.Some? <==> c.value.Some?
    ensures r.Some? ==> r.value.Keys == {"h", "s", "v"}
    ensures r.Some? ==> forall ch :: ch in r.value ==> r.value[ch] == Get(c.value.value, ch)
  {
    var v :- c.value;
    Some(HsvObj(HsvOf(v)))
  }

  /** Reading hsv back after setting it gives the channels set, back-filled
      from the old value when a hook is registered. */
  lemma SetHsvThenGet(c: Color, n: Obj)
    ensures !c.hooked ==> GetHsv(SetHsv(c, n)) == Some(HsvObj(HsvOf(n)))
    ensures c.hooked ==> GetHsv(SetHsv(c, n)) == Some(HsvObj(HsvOf(OldValue(c) + n)))
  {
  }

  // ---------------------------------------------------------------------------
  // The rgb and hsl accessors

  /** The `rgb` getter: hsv2Rgb of the stored value. */
  function GetRgb(c: Color): (r: Option<Rgb<Val>>)
    ensures r.Some? <==> c.value.Some?
    ensures r.Some? && !Get(c.value.value, "h").Num? ==> r.value == RgbNaN
  {
    var v :- c.value;
    Some(Kernel.HsvToRgb(HsvOf(v)))
  }

  /** The `hsl` getter: hsv2Hsl of the stored value, the hue passed through. */
  function GetHsl(c: Color): (r: Option<Hsl<Val>>)
    ensures r.Some? <==> c.value.Some?
    ensures r.Some? ==> r.value.h == Get(c.value.value, "h")
  {
    var v :- c.value;
    Some(Kernel.HsvToHsl(HsvOf(v)))
  }

  /** The `rgb` setter: stores rgb2Hsv of the object's r, g and b. The
      converted object carries all three channels, so a hook's back-fill
      leaves them as converted. Byte-range channels store h in [0, 360] and
      s, v in [0, 100]; a missing or non-numeric channel stores three NaNs. */
  function SetRgb(c: Color, o: Obj): (r: Color)
    ensures r.hooked == c.hooked && r.value.Some?
    ensures !c.hooked ==> r.value == Some(HsvObj(Kernel.RgbToHsv(RgbOf(o))))
    ensures var rgb := RgbOf(o); var hsv := HsvOf(r.value.value);
            rgb.r.Num? && rgb.g.Num? && rgb.b.Num? &&
            0.0 <= rgb.r.x <= 255.0 && 0.0 <= rgb.g.x <= 255.0 && 0.0 <= rgb.b.x <= 255.0 ==>
              hsv.h.Num? && hsv.s.Num? && hsv.v.Num? &&
              0.0 <= hsv.h.x <= 360.0 && 0.0 <= hsv.s.x <= 100.0 && 0.0 <= hsv.v.x <= 100.0
    ensures !(Get(o, "r").Num? && Get(o, "g").Num? && Get(o, "b").Num?) ==> HsvOf(r.value.value) == HsvNaN
  {
    Kernel.RgbToHsvOnRecord(RgbOf(o));
    SetHsv(c, HsvObj(Kernel.RgbToHsv(RgbOf(o))))
  }

  /** The `hsl` setter: stores hsl2Hsv of the object's h, s and l. The hue is
      stored as given, with or without a hook. In-range s and l store v in
      [0, 100], and a number s exactly when l is above zero (otherwise hsl2Hsv
      divides zero by zero); a missing or non-numeric s or l stores NaN s and
      v. */
  function SetHsl(c: Color, o: Obj): (r: Color)
    ensures r.hooked == c.hooked && r.value.Some?
    ensures !c.hooked ==> r.value == Some(HsvObj(Kernel.HslToHsv(HslOf(o))))
    ensures Get(r.value.value, "h") == Get(o, "h")
    ensures var hsl := HslOf(o); var hsv := HsvOf(r.value.value);
            hsl.s.Num? && hsl.l.Num? && 0.0 <= hsl.s.x <= 100.0 && 0.0 <= hsl.l.x <= 100.0 ==>
              hsv.v.Num? && 0.0 <= hsv.v.x <= 100.0 &&
              (hsv.s.Num? <==> hsl.l.x > 0.0) && (hsv.s.Num? ==> 0.0 <= hsv.s.x <= 100.0)
    ensures !(Get(o, "s").Num? && Get(o, "l").Num?) ==>
              Get(r.value.value, "s") == NaN && Get(r.value.value, "v") == NaN
  {
    Kernel.HslToHsvOnRecord(HslOf(o));
    SetHsv(c, HsvObj(Kernel.HslToHsv(HslOf(o))))
  }

  /** Setting a colour from another's hsl stores that colour's h, s and v
      again when hsv2Hsl's percentages came out whole, so that nothing was
      rounded, and v is above zero; the object form goes through `set` to the
      same setter. */
  lemma HslAccessorRoundTrip(c: Color, d: Color)
    requires c.value.Some? && InGamut(c.value.value)
    requires var hsv := HsvOf(c.value.value);
             hsv.v.x > 0.0 && IsWholeReal(hsv.s.x) && IsWholeReal(hsv.v.x) &&
             Kernel.HslExact(hsv.s.x / 100.0, hsv.v.x / 100.0)
    ensures GetHsv(SetHsl(d, HslObj(GetHsl(c).value))) == GetHsv(c)
    ensures Set(d, Record(HslObj(GetHsl(c).value))) == Some(SetHsl(d, HslObj(GetHsl(c).value)))
  {
    var hsv := HsvOf(c.value.value);
    var hsl := GetHsl(c).value;
    ObjRoundTrips(hsv, Rgb(Undef, Undef, Undef), hsl);
    Kernel.HsvHslRoundTrip(hsv.h, hsv.s.x, hsv.v.x);
  }

  /** The hsl round trip loses the saturation of black: at v = 0 the
      lightness is zero and hsl2Hsv stores NaN for s. */
  lemma HslAccessorBlack(c: Color, d: Color)
    requires c.value.Some?
    requires var hsv := HsvOf(c.value.value);
             hsv.s.Num? && 0.0 <= hsv.s.x <= 100.0 && hsv.v == Num(0.0)
    ensures GetHsv(SetHsl(d, HslObj(GetHsl(c).value))) ==
            Some(HsvObj(Hsv(Get(c.value.value, "h"), NaN, Num(0.0))))
    ensures GetHsv(SetHsl(d, HslObj(GetHsl(c).value))) != GetHsv(c)
  {
    var hsv := HsvOf(c.value.value);
    var hsl := GetHsl(c).value;
    ObjRoundTrips(hsv, Rgb(Undef, Undef, Undef), hsl);
    Kernel.HsvHslRoundTripBlack(hsv.h, hsv.s.x);
    assert HsvObj(Hsv(hsv.h, NaN, Num(0.0)))["s"] != HsvObj(hsv)["s"];
  }

  /** Three numbers in [0, 360), [0, 100] and [0, 100] as h, s and v. */
  predicate InGamut(o: Obj) {
    var c := HsvOf(o);
    c.h.Num? && c.s.Num? && c.v.Num? &&
    0.0 <= c.h.x < 360.0 && 0.0 <= c.s.x <= 100.0 && 0.0 <= c.v.x <= 100.0
  }

  /** A colour whose stored value is in gamut reads as three bytes of rgb. */
  lemma GetRgbBytes(c: Color)
    requires c.value.Some? && InGamut(c.value.value)
    ensures var rgb := GetRgb(c).value; Kernel.IsByte(rgb.r) && Kernel.IsByte(rgb.g) && Kernel.IsByte(rgb.b)
  {
    var h := HsvOf(c.value.value);
    Kernel.HsvToRgbInRange(h.h.x, h.s.x, h.v.x);
  }

  // ---------------------------------------------------------------------------
  // The string accessors

  /** The `rgbString` getter: rgb2Str of the rgb getter's object, which has
      no alpha, so the text is never the `rgba` form. */
  function GetRgbString(c: Color): (r: Option<string>)
    ensures r.Some? <==> c.value.Some?
    ensures r.Some? ==> |r.value| > 4 && r.value[..3] == "rgb" && r.value[3] != 'a'
  {
    var rgb :- GetRgb(c);
    Some(Text.RgbToStr(rgb, Undef))
  }

  /** The `hslString` getter: hsl2Str of the hsl getter's object, never
      the `hsla` form. */
  function GetHslString(c: Color): (r: Option<string>)
    ensures r.Some? <==> c.value.Some?
    ensures r.Some? ==> |r.value| > 4 && r.value[..3] == "hsl" && r.value[3] != 'a'
  {
    var hsl :- GetHsl(c);
    Some(Text.HslToStr(hsl, Undef))
  }

  /** A whole channel value in [0, 255] as an integer. */
  function ByteOf(v: Val): (n: int)
    requires Kernel.IsByte(v)
    ensures Hex.IsByteInt(n) && n as real == v.x
  {
    v.x.Floor
  }

  /** The rgb getter's channels are bytes. */
  predicate HasByteRgb(c: Color) {
    c.value.Some? &&
    var rgb := Kernel.HsvToRgb(HsvOf(c.value.value));
    Kernel.IsByte(rgb.r) && Kernel.IsByte(rgb.g) && Kernel.IsByte(rgb.b)
  }

  /** The `hexString` getter: rgb2Hex of the rgb getter's object. */
  function GetHexString(c: Color): (r: string)
    requires HasByteRgb(c)
    ensures |r| == 4 || |r| == 7
    ensures r[0] == '#'
    ensures forall k :: 1 <= k < |r| ==> Hex.IsLowerHexChar(r[k])
  {
    var rgb := GetRgb(c).value;
    Hex.RgbToHex(Rgb(ByteOf(rgb.r), ByteOf(rgb.g), ByteOf(rgb.b)))
  }

  /** The `rgbString` setter: parseRgbStr, then the rgb setter; None when
      the text is not read (the source throws). */
  function SetRgbString(c: Color, s: string): (r: Option<Color>)
    ensures r.Some? <==> Text.ParseRgbStr(s).Some?
  {
    var rgb :- Text.ParseRgbStr(s);
    Some(SetRgb(c, RgbObj(rgb)))
  }

  /** The `hslString` setter, with the parser reading the three numbers
      (see ParseHslStr for the parser as written). */
  function SetHslString(c: Color, s: string): (r: Option<Color>)
    ensures r.Some? <==> Text.ParseHslStrFixed(s).Some?
  {
    var hsl :- Text.ParseHslStrFixed(s);
    Some(SetHsl(c, HslObj(hsl)))
  }

  /** The `hslString` setter as written, through parseHslStr, which reads
      every channel one slot late: the stored hue is always a number. */
  function SetHslStringAsWritten(c: Color, s: string): (r: Option<Color>)
    ensures r.Some? <==> Text.ParseHslStr(s).Some?
    ensures r.Some? ==> r.value.hooked == c.hooked && r.value.value.Some? && Get(r.value.value.value, "h").Num?
  {
    var hsl :- Text.ParseHslStr(s);
    var d := SetHsl(c, HslObj(hsl));
    assert Get(d.value.value, "h") == hsl.h && hsl.h.Num?;
    Some(d)
  }

  /** As written, setting a colour from another's hslString stores that
      colour's hsl saturation as the hue and NaN for s and v (the lightness
      read as l is the missing alpha), whatever the receiving colour held. */
  lemma HslStringAsWrittenShifts(c: Color, d: Color)
    requires c.value.Some?
    requires var hsl := GetHsl(c).value; Text.IsWhole(hsl.h) && Text.IsWhole(hsl.s) && Text.IsWhole(hsl.l)
    ensures var r := SetHslStringAsWritten(d, GetHslString(c).value);
            r.Some? && GetHsv(r.value) == Some(HsvObj(Hsv(GetHsl(c).value.s, NaN, NaN)))
  {
    var hsl := GetHsl(c).value;
    Text.ParseHslShift(hsl, Undef);
    ObjRoundTrips(HsvNaN, RgbNaN, Hsl(hsl.s, hsl.l, Undef));
  }

  /** The `hexString` setter: parseHexStr, then the rgb setter. */
  function SetHexString(c: Color, s: string): (r: Color)
    ensures r.hooked == c.hooked
  {
    var rgb := Hex.ParseHexStr(s);
    SetRgb(c, RgbObj(Rgb(Num(rgb.r as real), Num(rgb.g as real), Num(rgb.b as real))))
  }

  /** Setting a colour from another's rgbString is setting it from that
      colour's rgb, when the other colour is in gamut. */
  lemma RgbStringTransfers(c: Color, d: Color)
    requires c.value.Some? && InGamut(c.value.value)
    ensures SetRgbString(d, GetRgbString(c).value) == Some(SetRgb(d, RgbObj(GetRgb(c).value)))
  {
    GetRgbBytes(c);
    Text.RgbTextRoundTrip(GetRgb(c).value, Undef);
  }

  /** Setting a colour from another's hexString is setting it from that
      colour's rgb, when the other colour reads as bytes. */
  lemma HexStringTransfers(c: Color, d: Color)
    requires HasByteRgb(c)
    ensures SetHexString(d, GetHexString(c)) == SetRgb(d, RgbObj(GetRgb(c).value))
  {
    var rgb := GetRgb(c).value;
    var bytes := Rgb(ByteOf(rgb.r), ByteOf(rgb.g), ByteOf(rgb.b));
    Hex.HexRoundTrip(bytes);
    assert Rgb(Num(bytes.r as real), Num(bytes.g as real), Num(bytes.b as real)) == rgb;
  }

  /** Setting a colour from another's hslString (with the corrected parser)
      is setting it from that colour's hsl, when its hsl channels are whole. */
  lemma HslStringTransfers(c: Color, d: Color)
    requires c.value.Some?
    requires var hsl := GetHsl(c).value; Text.IsWhole(hsl.h) && Text.IsWhole(hsl.s) && Text.IsWhole(hsl.l)
    ensures SetHslString(d, GetHslString(c).value) == Some(SetHsl(d, HslObj(GetHsl(c).value)))
  {
    Text.HslTextRoundTrip(GetHsl(c).value, Undef);
  }

  // ---------------------------------------------------------------------------
  // set, the constructor, clone

  /** Whether s starts with p (the regex tests `/^rgb/` and `/^hsl/`). */
  predicate StartsWith(s: string, p: string) {
    |p| <= |s| && s[..|p|] == p
  }

  /** `/^#[0-9A-Fa-f]/`. */
  predicate IsHexText(s: string) {
    |s| >= 2 && s[0] == '#' && Hex.IsHexChar(s[1])
  }

  /** `set`: an instance is copied through its hsv (the instance branch as
      evidently intended); an object goes to the rgb, hsv or hsl setter by its
      first key among "r", "v" and "l"; a string to the rgbString, hslString
      or hexString setter by its prefix. Anything else is ignored. None is the
      TypeError of reading from `null`, from an instance whose value is
      `undefined`, or of a string the parser cannot read. */
  function Set(c: Color, i: Input): (r: Option<Color>)
    ensures i.Null? ==> r.None?
    ensures i.Other? ==> r == Some(c)
    ensures i.Record? && "r" !in i.o && "v" !in i.o && "l" !in i.o ==> r == Some(c)
    ensures i.Str? && !StartsWith(i.s, "rgb") && !StartsWith(i.s, "hsl") && !IsHexText(i.s) ==> r == Some(c)
    ensures r.Some? ==> r.value.hooked == c.hooked
  {
    match i
    case Instance(other) =>
      var hsv :- GetHsv(other);
      Some(SetHsv(c, hsv))
    case Record(o) =>
      if "r" in o then Some(SetRgb(c, o))
      else if "v" in o then Some(SetHsv(c, o))
      else if "l" in o then Some(SetHsl(c, o))
      else Some(c)
    case Str(s) =>
      if StartsWith(s, "rgb") then SetRgbString(c, s)
      else if StartsWith(s, "hsl") then SetHslString(c, s)
      else if IsHexText(s) then Some(SetHexString(c, s))
      else Some(c)
    case Null => None
    case Other => Some(c)
  }

  /** Setting from another colour copies its h, s and v (even over a hooked
      colour, since the copy carries all three), and fails when the other
      colour's value is `undefined`. */
  lemma SetFromInstance(c: Color, d: Color)
    ensures Set(c, Instance(d)).Some? <==> d.value.Some?
    ensures d.value.Some? ==> GetHsv(Set(c, Instance(d)).value) == GetHsv(d)
    ensures d.value.Some? ==> Set(c, Record(GetHsv(d).value)) == Set(c, Instance(d))
  {
    if d.value.Some? {
      ObjRoundTrips(HsvOf(d.value.value), RgbNaN, Hsl(NaN, NaN, NaN));
      assert "v" in GetHsv(d).value && "r" !in GetHsv(d).value;
    }
  }

  /** The rgb object and the rgbString of an in-gamut colour set another
      colour to the same state through `set`. */
  lemma SetRgbFormsAgree(c: Color, d: Color)
    requires d.value.Some? && InGamut(d.value.value)
    ensures Set(c, Str(GetRgbString(d).value)) == Set(c, Record(RgbObj(GetRgb(d).value)))
  {
    RgbStringTransfers(d, c);
    var rs := GetRgbString(d).value;
    assert StartsWith(rs, "rgb");
    assert "r" in RgbObj(GetRgb(d).value);
  }

  /** The rgb object and the hexString of a colour whose rgb channels are
      bytes set another colour to the same state through `set`. */
  lemma SetHexFormAgrees(c: Color, d: Color)
    requires HasByteRgb(d)
    ensures Set(c, Str(GetHexString(d))) == Set(c, Record(RgbObj(GetRgb(d).value)))
  {
    HexStringTransfers(d, c);
    var hs := GetHexString(d);
    assert !StartsWith(hs, "rgb") && !StartsWith(hs, "hsl") by {
      assert hs[..3][0] == '#';
    }
    assert Hex.IsLowerHexChar(hs[1]);
    assert IsHexText(hs);
    assert "r" in RgbObj(GetRgb(d).value);
  }

  /** The hsl object and the hslString (read as intended) of a colour whose
      hsl channels are whole set another colour to the same state through
      `set`. */
  lemma SetHslFormsAgree(c: Color, d: Color)
    requires d.value.Some?
    requires var hsl := GetHsl(d).value; Text.IsWhole(hsl.h) && Text.IsWhole(hsl.s) && Text.IsWhole(hsl.l)
    ensures Set(c, Str(GetHslString(d).value)) == Set(c, Record(HslObj(GetHsl(d).value)))
  {
    HslStringTransfers(d, c);
    SetOnHslText(c, GetHslString(d).value);
    SetOnHslRecord(c, GetHsl(d).value);
  }

  /** `set` passes a text starting with "hsl" to the hslString setter. */
  lemma SetOnHslText(c: Color, s: string)
    requires StartsWith(s, "hsl")
    ensures Set(c, Str(s)) == SetHslString(c, s)
  {
    assert !StartsWith(s, "rgb") by {
      assert s[..3][0] == 'h';
    }
  }

  /** `set` passes an `{h, s, l}` object to the hsl setter. */
  lemma SetOnHslRecord(c: Color, hsl: Hsl<Val>)
    ensures Set(c, Record(HslObj(hsl))) == Some(SetHsl(c, HslObj(hsl)))
  {
    var o := HslObj(hsl);
    assert "r" !in o && "v" !in o && "l" in o;
  }

  /** An object with both "r" and "v" keys is read as rgb: the "r" test
      comes first. */
  lemma SetPrefersRgb(c: Color, o: Obj)
    requires "r" in o && "v" in o
    ensures Set(c, Record(o)) == Some(SetHsv(c, HsvObj(Kernel.RgbToHsv(RgbOf(o)))))
  {
  }

  /** The constructor: the default value, no hook, then `set` unless the
      argument is falsy; of the inputs that reach `set` and throw, only
      `null` is falsy. */
  function New(i: Input): (r: Option<Color>)
    ensures i.Null? ==> r == Some(Blank)
    ensures r.Some? ==> !r.value.hooked && r.value.log == []
  {
    if i.Null? then Some(Blank) else Set(Blank, i)
  }

  /** `clone`: a new colour set from this one. */
  function Clone(c: Color): (r: Option<Color>)
    ensures r.Some? <==> c.value.Some?
  {
    New(Instance(c))
  }

  /** A clone holds the same h, s and v, reads back the same in every model,
      and has no hook and no history of its own. */
  lemma CloneCopiesHsv(c: Color)
    requires c.value.Some?
    ensures var d := Clone(c).value;
            GetHsv(d) == GetHsv(c) && GetRgb(d) == GetRgb(c) && GetHsl(d) == GetHsl(c) &&
            !d.hooked && d.log == []
  {
    var o := c.value.value;
    var d := Clone(c).value;
    assert d.value == Some(HsvObj(HsvOf(o)));
    ObjRoundTrips(HsvOf(o), Rgb(Undef, Undef, Undef), Hsl(Undef, Undef, Undef));
  }

  /** The instance branch of `set` as written: it reads `color.hsv`, a
      property of the constructor, which is `undefined`. A hooked colour with
      a non-empty value then throws reading `undefined.hasOwnProperty`;
      otherwise the value becomes `undefined`. */
  function SetInstanceAsWritten(c: Color, other: Color): (r: Option<Color>)
    ensures r.Some? ==> r.value.value.None? && r.value.hooked == c.hooked && r.value.log == c.log
    ensures r.None? <==> c.hooked && |OldValue(c)| > 0
  {
    if c.hooked && |OldValue(c)| > 0 then None
    else Some(Color(None, c.hooked, c.log))
  }

  /** `clone` as written: the copy's value is `undefined`. */
  function CloneAsWritten(c: Color): (r: Color)
    ensures r.value.None?
  {
    SetInstanceAsWritten(Blank, c).value
  }

  /** As written, the clone of any colour cannot be read back: every getter
      throws on it, while the corrected clone reads back the original. */
  lemma CloneAsWrittenUnreadable(c: Color)
    requires c.value.Some?
    ensures GetHsv(CloneAsWritten(c)).None? && GetRgb(CloneAsWritten(c)).None?
    ensures GetHsv(Clone(c).value) == GetHsv(c)
  {
    CloneCopiesHsv(c);
  }

  /** `getColor`: an instance as it is, anything else through the
      constructor, which gives a colour with no hook and no history. */
  function GetColor(i: Input): (r: Option<Color>)
    ensures i.Instance? ==> r == Some(i.other)
    ensures !i.Instance? && r.Some? ==> !r.value.hooked && r.value.log == []
  {
    if i.Instance? then Some(i.other) else New(i)
  }

  // ---------------------------------------------------------------------------
  // setChannel and compare

  /** The record `this[model]` reads. */
  function ModelObj(c: Color, model: Model): (r: Option<Obj>)
    ensures r.Some? <==> c.value.Some?
  {
    match model
    case HsvModel => GetHsv(c)
    case RgbModel => var rgb :- GetRgb(c); Some(RgbObj(rgb))
    case HslModel => var hsl :- GetHsl(c); Some(HslObj(hsl))
  }

  /** The assignment `this[model] = v`. */
  function SetModel(c: Color, model: Model, o: Obj): Color {
    match model
    case HsvModel => SetHsv(c, o)
    case RgbModel => SetRgb(c, o)
    case HslModel => SetHsl(c, o)
  }

  /** `setChannel`: read the model's record, change one channel, write the
      whole record back. */
  function SetChannel(c: Color, model: Model, ch: string, x: Val): (r: Option<Color>)
    ensures r.Some? <==> c.value.Some?
  {
    var v :- ModelObj(c, model);
    Some(SetModel(c, model, v[ch := x]))
  }

  /** On the hsv model, setChannel sets the one channel and keeps the other
      two, with or without a hook. */
  lemma SetChannelOnlyChannel(c: Color, ch: string, x: Val, other: string)
    requires c.value.Some? && ch in {"h", "s", "v"}
    requires other in {"h", "s", "v"} && other != ch
    ensures var d := SetChannel(c, HsvModel, ch, x).value;
            Get(d.value.value, ch) == x && Get(d.value.value, other) == Get(c.value.value, other)
  {
  }

  /** On the hsl model, setting the hue stores exactly that hue: the hsl
      setter passes the hue through hsl2Hsv untouched. */
  lemma SetChannelHslHue(c: Color, x: Val)
    requires c.value.Some?
    ensures var d := SetChannel(c, HslModel, "h", x).value;
            d.hooked == c.hooked && Get(d.value.value, "h") == x
  {
  }

  /** `compare`: compareObjs of the two colours' records in one model. */
  function Compare(c: Color, i: Input, model: Model): (r: Option<map<string, bool>>)
    ensures r.Some? ==> r.value.Keys == (match model case HsvModel => {"h", "s", "v"} case RgbModel => {"r", "g", "b"} case HslModel => {"h", "s", "l"})
  {
    var a :- ModelObj(c, model);
    var other :- GetColor(i);
    var b :- ModelObj(other, model);
    Some(Algebra.CompareObjs(a, b))
  }

  /** Comparing a colour with itself in hsv flags exactly its NaN channels. */
  lemma CompareSelf(c: Color, ch: string)
    requires c.value.Some? && ch in {"h", "s", "v"}
    ensures Compare(c, Instance(c), HsvModel).value[ch] <==> Get(c.value.value, ch) == NaN
  {
    var a := GetHsv(c).value;
    Algebra.CompareObjsMeaning(a, a, ch);
  }

  // ---------------------------------------------------------------------------
  // mix, lighten, darken

  /** The free `mix`: a new colour from the weighted rgb channels of two
      colours. */
  function Mix(i1: Input, i2: Input, weight: Val): (r: Option<Color>)
    ensures r.Some? ==> !r.value.hooked && r.value.value.Some? && r.value.log == []
  {
    var c1 :- GetColor(i1);
    var c2 :- GetColor(i2);
    var rgb1 :- GetRgb(c1);
    var rgb2 :- GetRgb(c2);
    New(Record(RgbObj(Algebra.MixRgb(rgb1, rgb2, weight))))
  }

  /** Mixing two colours stores rgb2Hsv of the mixed channels; a weight of
      100 or more mixes to the second colour's rgb and a negative one to the
      first's. */
  lemma MixStoresMixedRgb(c1: Color, c2: Color, weight: Val)
    requires HasByteRgb(c1) && HasByteRgb(c2)
    ensures var m := Mix(Instance(c1), Instance(c2), weight);
            m.Some? && m.value.value == Some(HsvObj(Kernel.RgbToHsv(Algebra.MixRgb(GetRgb(c1).value, GetRgb(c2).value, weight))))
    ensures weight.Num? && weight.x >= 100.0 ==> Mix(Instance(c1), Instance(c2), weight).value.value == Some(HsvObj(Kernel.RgbToHsv(GetRgb(c2).value)))
    ensures weight.Num? && weight.x < 0.0 ==> Mix(Instance(c1), Instance(c2), weight).value.value == Some(HsvObj(Kernel.RgbToHsv(GetRgb(c1).value)))
  {
    var rgb1, rgb2 := GetRgb(c1).value, GetRgb(c2).value;
    Algebra.MixRgbEnds(rgb1, rgb2, weight);
  }

  /** The instance `mix`: this colour's hsv becomes the mixture's. It fails
      exactly when the free `mix` does, and afterwards this colour, keeping
      its hook, reads back the mixture's h, s and v. */
  function MixInto(c: Color, i: Input, weight: Val): (r: Option<Color>)
    ensures r.Some? <==> Mix(Instance(c), i, weight).Some?
    ensures r.Some? ==> r.value.hooked == c.hooked &&
                        GetHsv(r.value) == GetHsv(Mix(Instance(c), i, weight).value)
  {
    var m :- Mix(Instance(c), i, weight);
    var hsv := GetHsv(m).value;
    ObjRoundTrips(HsvOf(m.value.value), RgbNaN, Hsl(NaN, NaN, NaN));
    Some(SetHsv(c, hsv))
  }

  /** Mixing another colour into this one stores rgb2Hsv of the mixed rgb;
      with a hook, the hook is called once precisely when one of this
      colour's h, s and v changed, and without one nothing is logged. */
  lemma MixIntoStoresMixture(c: Color, c2: Color, weight: Val)
    requires HasByteRgb(c) && HasByteRgb(c2)
    ensures var hsv := HsvObj(Kernel.RgbToHsv(Algebra.MixRgb(GetRgb(c).value, GetRgb(c2).value, weight)));
            var r := MixInto(c, Instance(c2), weight);
            var changed := ChannelChanged(OldValue(c), hsv, "h") || ChannelChanged(OldValue(c), hsv, "s") ||
                           ChannelChanged(OldValue(c), hsv, "v");
            r.Some? && GetHsv(r.value) == Some(hsv) &&
            (c.hooked && changed ==> |r.value.log| == |c.log| + 1) &&
            (!c.hooked || !changed ==> r.value.log == c.log)
  {
    var mixed := Kernel.RgbToHsv(Algebra.MixRgb(GetRgb(c).value, GetRgb(c2).value, weight));
    var hsv := HsvObj(mixed);
    MixStoresMixedRgb(c, c2, weight);
    ObjRoundTrips(mixed, RgbNaN, Hsl(NaN, NaN, NaN));
    var m := Mix(Instance(c), Instance(c2), weight).value;
    assert GetHsv(m) == Some(hsv);
    if c.hooked {
      HookFiresIffChanged(c, hsv);
    }
  }

  /** The free `lighten`: the colour's v becomes `clamp(v + amount, 0, 100)`.
      An instance is changed itself, which the instance `lighten` relies on. */
  function Lighten(i: Input, amount: real): (r: Option<Color>)
    ensures i.Instance? ==> (r.Some? <==> i.other.value.Some?)
  {
    var col :- GetColor(i);
    var hsv :- GetHsv(col);
    Some(SetHsv(col, hsv["v" := Algebra.ShiftValue(hsv["v"], amount)]))
  }

  /** The free `darken`: v becomes `clamp(v - amount, 0, 100)`. */
  function Darken(i: Input, amount: real): (r: Option<Color>)
    ensures i.Instance? ==> (r.Some? <==> i.other.value.Some?)
  {
    var col :- GetColor(i);
    var hsv :- GetHsv(col);
    Some(SetHsv(col, hsv["v" := Algebra.ShiftValue(hsv["v"], -amount)]))
  }

  /** Lightening and darkening keep h and s, move v by the amount clamped to
      [0, 100], and keep the hook. */
  lemma LightenDarkenKeepHueSaturation(c: Color, amount: real)
    requires c.value.Some?
    ensures var o := c.value.value;
            var l := Lighten(Instance(c), amount).value;
            var d := Darken(Instance(c), amount).value;
            Get(l.value.value, "h") == Get(o, "h") && Get(l.value.value, "s") == Get(o, "s") &&
            Get(l.value.value, "v") == Algebra.ShiftValue(Get(o, "v"), amount) &&
            Get(d.value.value, "h") == Get(o, "h") && Get(d.value.value, "s") == Get(o, "s") &&
            Get(d.value.value, "v") == Algebra.ShiftValue(Get(o, "v"), -amount) &&
            l.hooked == c.hooked && d.hooked == c.hooked
  {
  }

  /** Within the range, darkening a lightened colour by the same amount
      restores its hsv. */
  lemma LightenThenDarken(c: Color, amount: real)
    requires c.value.Some? && InGamut(c.value.value)
    requires 0.0 <= Get(c.value.value, "v").x + amount <= 100.0
    ensures GetHsv(Darken(Instance(Lighten(Instance(c), amount).value), amount).value) == GetHsv(c)
  {
    var v := Get(c.value.value, "v");
    LightenDarkenKeepHueSaturation(c, amount);
    var l := Lighten(Instance(c), amount).value;
    LightenDarkenKeepHueSaturation(l, amount);
    var d := Darken(Instance(l), amount).value;
    Algebra.ShiftValueInverse(v, amount);
    assert HsvOf(d.value.value) == HsvOf(c.value.value);
  }
}

=== FILE: hex.dfy ===
/** The hexadecimal codec of src/modules/color.js: rgb2Hex and parseHexStr.
    Bit packing is written as arithmetic: `x << k` is `x * 2^k`, `x >> k` on a
    32-bit integer is floor division by `2^k`, and `x & (2^w - 1)` is
    `x % 2^w` (Dafny's `%` never returns a negative remainder, which is what
    masking a two's-complement integer gives). */
module Hex {
  import opened Channels
  import opened Wrappers

  predicate IsHexChar(c: char) {
    '0' <= c <= '9' || 'a' <= c <= 'f' || 'A' <= c <= 'F'
  }

  predicate IsLowerHexChar(c: char) {
    '0' <= c <= '9' || 'a' <= c <= 'f'
  }

  predicate AllHex(s: string) {
    forall i :: 0 <= i < |s| ==> IsHexChar(s[i])
  }

  /** The lower-case digit `Number.prototype.toString(16)` writes for d. */
  function HexChar(d: nat): (c: char)
    requires d < 16
    ensures IsLowerHexChar(c)
  {
    if d < 10 then ('0' as int + d) as char else ('a' as int + d - 10) as char
  }

  /** The value of one hexadecimal digit, either case. */
  function HexCharValue(c: char): (d: nat)
    requires IsHexChar(c)
    ensures d < 16
  {
    if '0' <= c <= '9' then c as int - '0' as int
    else if 'a' <= c <= 'f' then c as int - 'a' as int + 10
    else c as int - 'A' as int + 10
  }

  lemma HexCharValueOfHexChar(d: nat)
    requires d < 16
    ensures HexCharValue(HexChar(d)) == d
  {
  }

  function Pow16(k: nat): (p: nat)
    ensures p >= 1
  {
    if k == 0 then 1 else 16 * Pow16(k - 1)
  }

  lemma Pow16Values()
    ensures Pow16(3) == 0x1000 && Pow16(6) == 0x100_0000
  {
    assert Pow16(2) == 0x100;
    assert Pow16(4) == 0x1_0000;
    assert Pow16(5) == 0x10_0000;
  }

  /** `n.toString(16)`: the shortest lower-case hexadecimal numeral of n
      ("0" for zero). */
  function ToHex(n: nat): (s: string)
    ensures |s| >= 1
    ensures forall i :: 0 <= i < |s| ==> IsLowerHexChar(s[i])
    decreases n
  {
    if n < 16 then [HexChar(n)] else ToHex(n / 16) + [HexChar(n % 16)]
  }

  /** The number a string of hexadecimal digits denotes, most significant
      digit first. */
  function HexValue(s: string): nat
    requires AllHex(s)
  {
    if |s| == 0 then 0 else HexValue(s[..|s| - 1]) * 16 + HexCharValue(s[|s| - 1])
  }

  /** A run of k zero digits: `new Array(k + 1).join("0")`. */
  function Zeros(k: nat): (s: string)
    ensures |s| == k
    ensures forall i :: 0 <= i < k ==> s[i] == '0'
  {
    if k == 0 then "" else Zeros(k - 1) + "0"
  }

  lemma {:induction false} ToHexValue(n: nat)
    ensures AllHex(ToHex(n)) && HexValue(ToHex(n)) == n
    decreases n
  {
    if n < 16 {
      HexCharValueOfHexChar(n);
    } else {
      ToHexValue(n / 16);
      var s := ToHex(n);
      assert s[..|s| - 1] == ToHex(n / 16);
      HexCharValueOfHexChar(n % 16);
    }
  }

  lemma {:induction false} ToHexLength(n: nat, k: nat)
    requires k >= 1 && n < Pow16(k)
    ensures |ToHex(n)| <= k
    decreases n
  {
    if n >= 16 {
      ToHexLength(n / 16, k - 1);
    }
  }

  /** Leading zero digits do not change the value of a numeral. */
  lemma {:induction false} ZerosValue(k: nat, s: string)
    requires AllHex(s)
    ensures AllHex(Zeros(k) + s) && HexValue(Zeros(k) + s) == HexValue(s)
    decreases |s|
  {
    var z := Zeros(k) + s;
    if |s| == 0 {
      assert z == Zeros(k);
      ZerosAloneValue(k);
    } else {
      assert z[..|z| - 1] == Zeros(k) + s[..|s| - 1];
      ZerosValue(k, s[..|s| - 1]);
    }
  }

  lemma {:induction false} ZerosAloneValue(k: nat)
    ensures AllHex(Zeros(k)) && HexValue(Zeros(k)) == 0
  {
    if k > 0 {
      assert Zeros(k)[..k - 1] == Zeros(k - 1);
      ZerosAloneValue(k - 1);
    }
  }

  /** A byte: a whole number in [0, 255]. */
  predicate IsByteInt(x: int) {
    0 <= x < 256
  }

  predicate IsShorthand(c: Rgb<int>) {
    c.r % 17 == 0 && c.g % 17 == 0 && c.b % 17 == 0
  }

  /** rgb2Hex: when every channel is a multiple of 17 the 3-digit shorthand
      of the channels divided by 17, otherwise the 6-digit form; lower-case,
      left-padded with zeros, prefixed with '#'. */
  function RgbToHex(c: Rgb<int>): (s: string)
    requires IsByteInt(c.r) && IsByteInt(c.g) && IsByteInt(c.b)
    ensures |s| == (if IsShorthand(c) then 4 else 7)
    ensures s[0] == '#'
    ensures forall i :: 1 <= i < |s| ==> IsLowerHexChar(s[i])
  {
    var short := IsShorthand(c);
    var n := Packed(c);
    var strLength := if short then 4 else 7;
    var digits := ToHex(n);
    Pow16Values();
    ToHexLength(n, strLength - 1);
    "#" + Zeros(strLength - 1 - |digits|) + digits
  }

  /** The integer rgb2Hex packs the channels into: 4 bits each (after
      dividing by 17) for shorthand, 8 bits each otherwise. */
  function Packed(c: Rgb<int>): (n: nat)
    requires IsByteInt(c.r) && IsByteInt(c.g) && IsByteInt(c.b)
    ensures IsShorthand(c) ==> n < 0x1000
    ensures n < 0x100_0000
  {
    if IsShorthand(c) then (c.r / 17) * 256 + (c.g / 17) * 16 + c.b / 17
    else c.r * 65536 + c.g * 256 + c.b
  }

  /** `hex.replace("#", "")`: a string pattern replaces only its first
      occurrence. */
  function RemoveFirst(s: string, c: char): (r: string)
    ensures c !in s ==> r == s
    ensures c in s ==> |r| == |s| - 1
    ensures c in s ==> exists i :: 0 <= i < |s| && s[i] == c && c !in s[..i] && r == s[..i] + s[i + 1..]
  {
    if c in s then
      var i := IndexOf(s, c);
      var r := s[..i] + s[i + 1..];
      assert 0 <= i < |s| && s[i] == c && c !in s[..i] && r == s[..i] + s[i + 1..];
      r
    else s
  }

  /** The length of the longest prefix of hexadecimal digits. */
  function LeadingHex(s: string): (k: nat)
    ensures k <= |s|
    ensures AllHex(s[..k])
    ensures k < |s| ==> !IsHexChar(s[k])
  {
    if |s| == 0 || !IsHexChar(s[0]) then 0
    else
      var k := 1 + LeadingHex(s[1..]);
      assert s[..k] == [s[0]] + s[1..][..k - 1];
      k
  }

  /** `parseInt("0x" + hex)`: the value of the longest prefix of hexadecimal
      digits, or NaN (None) when there is none. */
  function ParseIntHex(hex: string): (r: Option<nat>)
    ensures r.None? <==> (|hex| == 0 || !IsHexChar(hex[0]))
  {
    var k := LeadingHex(hex);
    if k == 0 then None else Some(HexValue(hex[..k]))
  }

  /** ToInt32, the conversion JavaScript's bit operators apply first. */
  function Int32(n: int): (r: int)
    ensures -0x8000_0000 <= r < 0x8000_0000
    ensures 0 <= n < 0x8000_0000 ==> r == n
    ensures (n - r) % 0x1_0000_0000 == 0
  {
    (n + 0x8000_0000) % 0x1_0000_0000 - 0x8000_0000
  }

  /** parseHexStr. It never fails: NaN from parseInt reads as 0 under the bit
      operators, and any length other than 3 is read with 8-bit masks. */
  function ParseHexStr(str: string): (c: Rgb<int>)
    ensures IsByteInt(c.r) && IsByteInt(c.g) && IsByteInt(c.b)
    ensures |RemoveFirst(str, '#')| == 3 ==> IsShorthand(c)
  {
    var hex := RemoveFirst(str, '#');
    var n := match ParseIntHex(hex) case Some(v) => Int32(v) case None => 0;
    if |hex| == 3 then
      Rgb((n / 256) % 16 * 17, (n / 16) % 16 * 17, n % 16 * 17)
    else
      Rgb((n / 65536) % 256, (n / 256) % 256, n % 256)
  }

  /** Zero padding followed by a numeral parses back to the numeral's value. */
  lemma ParsePadded(k: nat, n: nat)
    ensures var hex := Zeros(k) + ToHex(n); AllHex(hex) && ParseIntHex(hex) == Some(n)
  {
    var hex := Zeros(k) + ToHex(n);
    ToHexValue(n);
    ZerosValue(k, ToHex(n));
    assert LeadingHex(hex) == |hex|;
    assert hex[..|hex|] == hex;
  }

  lemma DecodeShorthand(a: nat, b: nat, c: nat)
    requires a < 16 && b < 16 && c < 16
    ensures var n := a * 256 + b * 16 + c;
      Int32(n) == n && (n / 256) % 16 == a && (n / 16) % 16 == b && n % 16 == c
  {
    var n := a * 256 + b * 16 + c;
    assert n / 16 == a * 16 + b;
    assert n / 256 == a;
  }

  lemma DecodeFull(r: nat, g: nat, b: nat)
    requires r < 256 && g < 256 && b < 256
    ensures var n := r * 65536 + g * 256 + b;
      Int32(n) == n && (n / 65536) % 256 == r && (n / 256) % 256 == g && n % 256 == b
  {
    var n := r * 65536 + g * 256 + b;
    assert n / 256 == r * 256 + g;
    assert n / 65536 == r;
  }

  /** What parseHexStr sees of rgb2Hex's text: the packed integer, in three
      digits exactly for shorthand. */
  lemma HexBodyParses(c: Rgb<int>)
    requires IsByteInt(c.r) && IsByteInt(c.g) && IsByteInt(c.b)
    ensures var hex := RemoveFirst(RgbToHex(c), '#');
      ParseIntHex(hex) == Some(Packed(c)) && (|hex| == 3 <==> IsShorthand(c))
  {
    var n := Packed(c);
    var strLength := if IsShorthand(c) then 4 else 7;
    var digits := ToHex(n);
    Pow16Values();
    ToHexLength(n, strLength - 1);
    var k := strLength - 1 - |digits|;
    var s := RgbToHex(c);
    assert s == "#" + (Zeros(k) + digits);
    assert RemoveFirst(s, '#') == Zeros(k) + digits;
    ParsePadded(k, n);
  }

  /** parseHexStr once parseInt has read a non-negative 31-bit value. */
  lemma ParseHexStrOf(str: string, n: nat)
    requires ParseIntHex(RemoveFirst(str, '#')) == Some(n) && n < 0x8000_0000
    ensures |RemoveFirst(str, '#')| == 3 ==> ParseHexStr(str) == Rgb((n / 256) % 16 * 17, (n / 16) % 16 * 17, n % 16 * 17)
    ensures |RemoveFirst(str, '#')| != 3 ==> ParseHexStr(str) == Rgb((n / 65536) % 256, (n / 256) % 256, n % 256)
  {
    assert Int32(n) == n;
  }

  /** Every byte triple survives rgb2Hex followed by parseHexStr. */
  lemma HexRoundTrip(c: Rgb<int>)
    requires IsByteInt(c.r) && IsByteInt(c.g) && IsByteInt(c.b)
    ensures ParseHexStr(RgbToHex(c)) == c
  {
    var s := RgbToHex(c);
    var n := Packed(c);
    HexBodyParses(c);
    ParseHexStrOf(s, n);
    if IsShorthand(c) {
      var r, g, b := c.r / 17, c.g / 17, c.b / 17;
      assert r * 17 == c.r && g * 17 == c.g && b * 17 == c.b;
      DecodeShorthand(r, g, b);
      assert n == r * 256 + g * 16 + b;
    } else {
      DecodeFull(c.r, c.g, c.b);
      assert n == c.r * 65536 + c.g * 256 + c.b;
    }
  }

  /** A three-digit input is read as shorthand: each channel is its digit's
      value times 17. */
  lemma ShorthandDigits(d0: char, d1: char, d2: char)
    requires IsHexChar(d0) && IsHexChar(d1) && IsHexChar(d2)
    ensures ParseHexStr(['#', d0, d1, d2])
      == Rgb(HexCharValue(d0) * 17, HexCharValue(d1) * 17, HexCharValue(d2) * 17)
  {
    var hex := [d0, d1, d2];
    assert IndexOf(['#', d0, d1, d2], '#') == 0;
    assert RemoveFirst(['#', d0, d1, d2], '#') == hex;
    ThreeDigitsValue(d0, d1, d2);
    DecodeShorthand(HexCharValue(d0), HexCharValue(d1), HexCharValue(d2));
  }

  /** Three hexadecimal digits parse as a number below 0x1000. */
  lemma ThreeDigitsValue(d0: char, d1: char, d2: char)
    requires IsHexChar(d0) && IsHexChar(d1) && IsHexChar(d2)
    ensures ParseIntHex([d0, d1, d2])
      == Some(HexCharValue(d0) * 256 + HexCharValue(d1) * 16 + HexCharValue(d2))
  {
    var hex := [d0, d1, d2];
    assert LeadingHex(hex) == 3;
    assert hex[..3] == hex;
    assert hex[..2] == [d0, d1] && [d0, d1][..1] == [d0] && [d0][..0] == [];
    var v0, v1, v2 := HexCharValue(d0), HexCharValue(d1), HexCharValue(d2);
    assert HexValue([d0]) == v0;
    assert HexValue([d0, d1]) == v0 * 16 + v1;
  }

  /** "#0f0" reads as pure green. */
  lemma HexParseExample()
    ensures ParseHexStr("#0f0") == Rgb(0, 255, 0)
  {
    var str := "#0f0";
    assert IndexOf(str, '#') == 0;
    assert RemoveFirst(str, '#') == str[1..] == ['0', 'f', '0'];
    ShorthandDigits('0', 'f', '0');
  }

  /** Pure red is written in shorthand, "#f00". */
  lemma HexWriteExample()
    ensures RgbToHex(Rgb(255, 0, 0)) == "#f00"
  {
    assert ToHex(3840) == ToHex(240) + ['0'];
    assert ToHex(240) == ToHex(15) + ['0'];
  }
}

=== FILE: kernel.dfy ===
/** The conversion kernel of src/modules/color.js: hsv2Rgb, rgb2Hsv, hsv2Hsl
    and hsl2Hsv, over exact reals instead of IEEE doubles. Each conversion is
    defined once, on JavaScript channel values, so that `undefined` and NaN
    inputs propagate the way the arithmetic in the source propagates them. */
module Kernel {
  import opened Channels

  /** `Math.round`: the nearest integer, halves rounded towards +infinity. */
  function Round(x: real): (n: int)
    ensures x - 0.5 < n as real <= x + 0.5
  {
    (x + 0.5).Floor
  }

  /** A rounded number as a channel value. */
  function RoundNum(x: real): (r: Val)
    ensures r.Num? && r.x == Round(x) as real
  {
    Num(Round(x) as real)
  }

  /** JavaScript `i % 6`: the remainder truncated towards zero, which takes the
      sign of `i` (so `-1 % 6` is `-1`, while `-6 % 6` is `-0`, equal to `0`). */
  function JsRem6(i: int): (r: int)
    ensures -6 < r < 6
    ensures i >= 0 ==> r >= 0
    ensures i <= 0 ==> r <= 0
    ensures (i - r) % 6 == 0
  {
    if i >= 0 then i % 6
    else
      var q := (-i) / 6;
      assert i - -((-i) % 6) == -6 * q;
      -((-i) % 6)
  }

  function Max(a: real, b: real): real { if a >= b then a else b }
  function Min(a: real, b: real): real { if a <= b then a else b }
  function Abs(a: real): real { if a >= 0.0 then a else -a }

  /** A whole number in [0, 255]: a byte-valued channel. */
  predicate IsByte(a: Val) {
    IsWholeNum(a) && 0.0 <= a.x <= 255.0
  }

  /** A number in [0, 1]: a channel normalised to the unit interval. */
  predicate InUnit(a: Val) {
    a.Num? && 0.0 <= a.x <= 1.0
  }

  // ---------------------------------------------------------------------------
  // hsv2Rgb

  /** `floor(h * 6)` of hsv2Rgb, where h is the hue divided by 360. */
  function HueIndex(h: real): int {
    (h / 360.0 * 6.0).Floor
  }

  /** hsv2Rgb's p, q and t for saturation s, value v and hue fraction f; each
      is NaN unless both s and v are numbers. */
  function Pqt(s: Val, v: Val, f: real): (Val, Val, Val) {
    if s.Num? && v.Num? then
      var s' := s.x / 100.0;
      var v' := v.x / 100.0;
      (Num(v' * (1.0 - s')), Num(v' * (1.0 - f * s')), Num(v' * (1.0 - (1.0 - f) * s')))
    else (NaN, NaN, NaN)
  }

  /** `round(x * 255)` of hsv2Rgb's last line; NaN stays NaN. */
  function Scale255(x: Val): (r: Val)
    ensures x.Num? <==> r.Num?
  {
    if x.Num? then RoundNum(x.x * 255.0) else NaN
  }

  /** The six-case switch of hsv2Rgb: which of v, p, q and t becomes r, g
      and b in each sixth of the hue circle. */
  function SectorTable(sector: int, v: Val, p: Val, q: Val, t: Val): Rgb<Val>
    requires 0 <= sector < 6
  {
    if sector == 0 then Rgb(v, t, p)
    else if sector == 1 then Rgb(q, v, p)
    else if sector == 2 then Rgb(p, v, t)
    else if sector == 3 then Rgb(p, q, v)
    else if sector == 4 then Rgb(t, p, v)
    else Rgb(v, p, q)
  }

  /** hsv2Rgb. A hue that is not a number, or a negative hue whose sector
      index `i % 6` is negative, matches no case of the switch, so every
      channel comes out NaN. */
  function HsvToRgb(c: Hsv<Val>): (r: Rgb<Val>)
    ensures !c.h.Num? ==> r == RgbNaN
    ensures c.h.Num? && c.h.x >= 0.0 && c.s.Num? && c.v.Num? ==> r.r.Num? && r.g.Num? && r.b.Num?
  {
    if !c.h.Num? then RgbNaN
    else
      var i := HueIndex(c.h.x);
      var f := c.h.x / 360.0 * 6.0 - i as real;
      var sector := JsRem6(i);
      if sector < 0 then RgbNaN
      else
        var v := if c.v.Num? then Num(c.v.x / 100.0) else NaN;
        var (p, q, t) := Pqt(c.s, c.v, f);
        var x := SectorTable(sector, v, p, q, t);
        Rgb(Scale255(x.r), Scale255(x.g), Scale255(x.b))
  }

  // ---------------------------------------------------------------------------
  // rgb2Hsv

  /** rgb2Hsv's hue in sixths of the circle (the value before `hue /= 6`), for
      channels already divided by 255. The switch tries `case min` first, then
      r, g and b, in that order. */
  function HueSixths(r: real, g: real, b: real): real {
    var mx := Max(r, Max(g, b));
    var mn := Min(r, Min(g, b));
    var delta := mx - mn;
    if mx == mn then 0.0
    else if mx == r then (g - b) / delta + (if g < b then 6.0 else 0.0)
    else if mx == g then (b - r) / delta + 2.0
    else (r - g) / delta + 4.0
  }

  /** rgb2Hsv's saturation before rounding: `delta / max * 100`, or 0 when
      max is 0. */
  function Saturation(r: real, g: real, b: real): real {
    var mx := Max(r, Max(g, b));
    var mn := Min(r, Min(g, b));
    if mx == 0.0 then 0.0 else (mx - mn) / mx * 100.0
  }

  /** rgb2Hsv. Any channel that is not a number makes Math.max NaN, and then
      every output channel is NaN. */
  function RgbToHsv(c: Rgb<Val>): (r: Hsv<Val>)
    ensures !(c.r.Num? && c.g.Num? && c.b.Num?) ==> r == HsvNaN
    ensures c.r.Num? && c.g.Num? && c.b.Num? ==> r.h.Num? && r.s.Num? && r.v.Num?
  {
    if c.r.Num? && c.g.Num? && c.b.Num? then
      var r := c.r.x / 255.0;
      var g := c.g.x / 255.0;
      var b := c.b.x / 255.0;
      Hsv(RoundNum(HueSixths(r, g, b) / 6.0 * 360.0),
          RoundNum(Saturation(r, g, b)),
          RoundNum(Max(r, Max(g, b)) * 100.0))
    else HsvNaN
  }

  // ---------------------------------------------------------------------------
  // hsv2Hsl and hsl2Hsv

  /** hsv2Hsl's lightness `0.5 * v * (2 - s)` for normalised s and v. */
  function Lightness(s: real, v: real): real {
    0.5 * v * (2.0 - s)
  }

  /** hsv2Hsl's saturation for normalised s and v. A zero denominator with a
      zero numerator gives NaN, which `round(s * 100) || 0` turns into 0; a
      zero denominator with a non-zero numerator (possible only for channels
      outside their ranges) gives an infinity, which this model represents as
      NaN. */
  function HslSaturation(s: real, v: real): Val {
    var l := Lightness(s, v);
    var den := 1.0 - Abs(2.0 * l - 1.0);
    if den != 0.0 then RoundNum(v * s / den * 100.0)
    else if v * s == 0.0 then Num(0.0)
    else NaN
  }

  /** hsv2Hsl. The hue is passed through untouched; when s or v is not a
      number the saturation is `NaN || 0`, that is 0. */
  function HsvToHsl(c: Hsv<Val>): (r: Hsl<Val>)
    ensures r.h == c.h
    ensures !(c.s.Num? && c.v.Num?) ==> r.s == Num(0.0) && r.l == NaN
    ensures c.s.Num? && c.v.Num? ==> r.l.Num?
  {
    if c.s.Num? && c.v.Num? then
      var s := c.s.x / 100.0;
      var v := c.v.x / 100.0;
      Hsl(c.h, HslSaturation(s, v), RoundNum(Lightness(s, v) * 100.0))
    else Hsl(c.h, Num(0.0), NaN)
  }

  /** hsl2Hsv's `s *= (l <= 1) ? l : 2 - l`, for s normalised and l doubled. */
  function ScaledSaturation(s: real, l: real): real {
    s * (if l <= 1.0 then l else 2.0 - l)
  }

  /** hsl2Hsv. There is no guard on `l + s`: when it is zero (black) the
      saturation is 0/0, NaN. */
  function HslToHsv(c: Hsl<Val>): (r: Hsv<Val>)
    ensures r.h == c.h
    ensures !(c.s.Num? && c.l.Num?) ==> r.s == NaN && r.v == NaN
    ensures c.s.Num? && c.l.Num? ==> r.v.Num?
  {
    if c.s.Num? && c.l.Num? then
      var l := 2.0 * (c.l.x / 100.0);
      var s := ScaledSaturation(c.s.x / 100.0, l);
      Hsv(c.h,
          if l + s != 0.0 then RoundNum(2.0 * s / (l + s) * 100.0) else NaN,
          RoundNum((l + s) / 2.0 * 100.0))
    else Hsv(c.h, NaN, NaN)
  }

  // ---------------------------------------------------------------------------
  // Arithmetic facts the range lemmas rest on

  lemma MulNonneg(a: real, b: real)
    requires a >= 0.0 && b >= 0.0
    ensures a * b >= 0.0
  {
  }

  lemma UnitProduct(a: real, b: real)
    requires 0.0 <= a <= 1.0 && 0.0 <= b <= 1.0
    ensures 0.0 <= a * b <= a && a * b <= b
  {
    MulNonneg(a, b);
    MulNonneg(a, 1.0 - b);
    MulNonneg(1.0 - a, b);
  }

  lemma FactorSign(x: real, d: real)
    requires d > 0.0 && x * d >= 0.0
    ensures x >= 0.0
  {
  }

  lemma DivUnit(a: real, d: real)
    requires d > 0.0 && -d <= a <= d
    ensures -1.0 <= a / d <= 1.0
  {
    var q := a / d;
    assert q * d == a;
    FactorSign(1.0 - q, d);
    FactorSign(q + 1.0, d);
  }

  lemma DivNonneg(a: real, d: real)
    requires d > 0.0 && a >= 0.0
    ensures a / d >= 0.0
  {
    var q := a / d;
    assert q * d == a;
    FactorSign(q, d);
  }

  lemma RoundKeepsRange(x: real, lo: int, hi: int)
    requires lo as real <= x <= hi as real
    ensures lo <= Round(x) <= hi
  {
  }

  lemma Scale255OfUnit(x: Val)
    requires InUnit(x)
    ensures IsByte(Scale255(x))
  {
  }

  // ---------------------------------------------------------------------------
  // Properties of the conversions

  /** p, q and t stay in [0, 1] when s and v are percentages and f is in [0, 1]. */
  lemma PqtInUnit(s: real, v: real, f: real)
    requires 0.0 <= s <= 100.0 && 0.0 <= v <= 100.0 && 0.0 <= f <= 1.0
    ensures var (p, q, t) := Pqt(Num(s), Num(v), f); InUnit(p) && InUnit(q) && InUnit(t)
  {
    var s', v' := s / 100.0, v / 100.0;
    UnitProduct(v', 1.0 - s');
    UnitProduct(f, s');
    UnitProduct(v', 1.0 - f * s');
    UnitProduct(1.0 - f, s');
    UnitProduct(v', 1.0 - (1.0 - f) * s');
  }

  /** hsv2Rgb on a hue in [0, 360) and saturation and value in [0, 100] gives
      three whole channels in [0, 255]. */
  lemma HsvToRgbInRange(h: real, s: real, v: real)
    requires 0.0 <= h < 360.0 && 0.0 <= s <= 100.0 && 0.0 <= v <= 100.0
    ensures var r := HsvToRgb(Hsv(Num(h), Num(s), Num(v)));
      IsByte(r.r) && IsByte(r.g) && IsByte(r.b)
  {
    var i := HueIndex(h);
    var f := h / 360.0 * 6.0 - i as real;
    assert 0 <= i < 6;
    assert JsRem6(i) == i;
    PqtInUnit(s, v, f);
    var (p, q, t) := Pqt(Num(s), Num(v), f);
    Scale255OfUnit(Num(v / 100.0));
    Scale255OfUnit(p);
    Scale255OfUnit(q);
    Scale255OfUnit(t);
  }

  /** With zero saturation hsv2Rgb gives a gray: the three channels agree,
      whatever the hue. */
  lemma HsvToRgbGray(h: Val, v: Val)
    ensures var r := HsvToRgb(Hsv(h, Num(0.0), v)); r.r == r.g == r.b
  {
  }

  /** The switch in hsv2Rgb wraps negative hues only in part. A hue in
      [-300, 0) falls in a sector `i % 6` between -5 and -1, matches no case,
      and every channel is NaN. A hue in [-360, -300) falls in sector
      `-6 % 6`, which is -0 and matches case 0, so it reads like the hue 360
      degrees higher. */
  lemma HsvToRgbNegativeHue(h: real, s: Val, v: Val)
    requires -360.0 <= h < 0.0
    ensures -300.0 <= h ==> HsvToRgb(Hsv(Num(h), s, v)) == RgbNaN
    ensures h < -300.0 ==> HsvToRgb(Hsv(Num(h), s, v)) == HsvToRgb(Hsv(Num(h + 360.0), s, v))
  {
    var i := HueIndex(h);
    if -300.0 <= h {
      assert -5 <= i <= -1;
      assert JsRem6(i) == i;
    } else {
      assert i == -6;
      assert JsRem6(i) == 0;
      assert HueIndex(h + 360.0) == 0;
      assert (h + 360.0) / 360.0 * 6.0 - 0 as real == h / 360.0 * 6.0 - i as real;
    }
  }

  /** rgb2Hsv of a gray (r == g == b) has hue 0 and saturation 0. */
  lemma RgbToHsvGray(x: real)
    ensures var r := RgbToHsv(Rgb(Num(x), Num(x), Num(x))); r.h == Num(0.0) && r.s == Num(0.0)
  {
  }

  /** rgb2Hsv with a zero maximum channel has saturation 0 and value 0. */
  lemma RgbToHsvZeroMax(r: real, g: real, b: real)
    requires Max(r, Max(g, b)) == 0.0
    ensures var c := RgbToHsv(Rgb(Num(r), Num(g), Num(b))); c.s == Num(0.0) && c.v == Num(0.0)
  {
    assert Max(r / 255.0, Max(g / 255.0, b / 255.0)) == 0.0;
  }

  /** The hue in sixths always lies in [0, 6]. */
  lemma HueSixthsInRange(r: real, g: real, b: real)
    ensures 0.0 <= HueSixths(r, g, b) <= 6.0
  {
    var mx := Max(r, Max(g, b));
    var mn := Min(r, Min(g, b));
    if mx != mn {
      DivUnit(g - b, mx - mn);
      DivUnit(b - r, mx - mn);
      DivUnit(r - g, mx - mn);
    }
  }

  /** For non-negative channels the saturation lies in [0, 100]. */
  lemma SaturationInRange(r: real, g: real, b: real)
    requires r >= 0.0 && g >= 0.0 && b >= 0.0
    ensures 0.0 <= Saturation(r, g, b) <= 100.0
  {
    var mx := Max(r, Max(g, b));
    var mn := Min(r, Min(g, b));
    if mx != 0.0 {
      DivUnit(mx - mn, mx);
      DivNonneg(mx - mn, mx);
    }
  }

  /** rgb2Hsv on channels in [0, 255] gives a hue in [0, 360] (360 itself is
      reachable, from r = 255, g = 0, b = 1 for instance) and saturation and
      value in [0, 100]. */
  lemma RgbToHsvInRange(r: real, g: real, b: real)
    requires 0.0 <= r <= 255.0 && 0.0 <= g <= 255.0 && 0.0 <= b <= 255.0
    ensures var c := RgbToHsv(Rgb(Num(r), Num(g), Num(b)));
      0.0 <= c.h.x <= 360.0 && 0.0 <= c.s.x <= 100.0 && 0.0 <= c.v.x <= 100.0
  {
    var r', g', b' := r / 255.0, g / 255.0, b / 255.0;
    HueSixthsInRange(r', g', b');
    SaturationInRange(r', g', b');
    RoundKeepsRange(HueSixths(r', g', b') / 6.0 * 360.0, 0, 360);
    RoundKeepsRange(Saturation(r', g', b'), 0, 100);
    RoundKeepsRange(Max(r', Max(g', b')) * 100.0, 0, 100);
  }

  /** rgb2Hsv then hsv2Rgb is not within one of the start on every channel:
      rgb(255, 2, 0) has a hue of 0.47 degrees, which rounds to 0, and comes
      back as rgb(255, 0, 0), two off in green. */
  lemma RgbHsvRoundTripOffByTwo()
    ensures RgbToHsv(Rgb(Num(255.0), Num(2.0), Num(0.0))) == Hsv(Num(0.0), Num(100.0), Num(100.0))
    ensures HsvToRgb(Hsv(Num(0.0), Num(100.0), Num(100.0))) == Rgb(Num(255.0), Num(0.0), Num(0.0))
  {
    assert HueSixths(1.0, 2.0 / 255.0, 0.0) == 2.0 / 255.0;
    assert (120.0 / 255.0 + 0.5).Floor == 0;
    assert Saturation(1.0, 2.0 / 255.0, 0.0) == 100.0;
    assert RoundNum(255.0) == Num(255.0);
  }

  /** hsl2Hsv's scaled saturation never exceeds the doubled lightness, nor 1. */
  lemma ScaledSaturationBounds(s: real, l: real)
    requires 0.0 <= s <= 1.0 && 0.0 <= l <= 2.0
    ensures 0.0 <= ScaledSaturation(s, l) <= l
    ensures l + ScaledSaturation(s, l) <= 2.0
  {
    var k := if l <= 1.0 then l else 2.0 - l;
    UnitProduct(s, k);
    assert ScaledSaturation(s, l) == s * k;
  }

  /** hsl2Hsv on saturation and lightness in [0, 100]: the value is a number
      in [0, 100], and the saturation is NaN exactly when the lightness is 0
      (black), where the source divides 0 by 0. */
  lemma HslToHsvInRange(h: Val, s: real, l: real)
    requires 0.0 <= s <= 100.0 && 0.0 <= l <= 100.0
    ensures var c := HslToHsv(Hsl(h, Num(s), Num(l)));
      && c.v.Num? && 0.0 <= c.v.x <= 100.0
      && (c.s.Num? <==> l > 0.0)
      && (c.s.Num? ==> 0.0 <= c.s.x <= 100.0)
  {
    var l' := 2.0 * (l / 100.0);
    var s' := ScaledSaturation(s / 100.0, l');
    ScaledSaturationBounds(s / 100.0, l');
    RoundKeepsRange((l' + s') / 2.0 * 100.0, 0, 100);
    if l' + s' != 0.0 {
      DivUnit(2.0 * s', l' + s');
      DivNonneg(2.0 * s', l' + s');
      RoundKeepsRange(2.0 * s' / (l' + s') * 100.0, 0, 100);
    }
  }

  lemma LightnessInUnit(s: real, v: real)
    requires 0.0 <= s <= 1.0 && 0.0 <= v <= 1.0
    ensures 0.0 <= Lightness(s, v) <= 1.0
  {
    UnitProduct(v, 1.0 - s / 2.0);
    assert Lightness(s, v) == v * (1.0 - s / 2.0);
  }

  /** hsv2Hsl's saturation stays in [0, 100] for s and v in [0, 1]; in
      particular the infinite case never arises there. */
  lemma HslSaturationInRange(s: real, v: real)
    requires 0.0 <= s <= 1.0 && 0.0 <= v <= 1.0
    ensures var r := HslSaturation(s, v); r.Num? && 0.0 <= r.x <= 100.0
  {
    var l := Lightness(s, v);
    LightnessInUnit(s, v);
    UnitProduct(v, s);
    UnitProduct(v, 1.0 - s);
    var n := v * s;
    var den := 1.0 - Abs(2.0 * l - 1.0);
    if den != 0.0 {
      if l <= 0.5 {
        assert den - n == 2.0 * (v * (1.0 - s));
      } else {
        assert den - n == 2.0 - 2.0 * v;
      }
      DivUnit(n, den);
      DivNonneg(n, den);
      RoundKeepsRange(n / den * 100.0, 0, 100);
    }
  }

  /** hsv2Hsl computes its lightness and saturation percentages exactly,
      without rounding, for normalised s and v. */
  predicate HslExact(s: real, v: real) {
    var l := Lightness(s, v);
    var den := 1.0 - Abs(2.0 * l - 1.0);
    IsWholeReal(l * 100.0) && (den != 0.0 ==> IsWholeReal(v * s / den * 100.0))
  }

  /** hsl2Hsv undoes hsv2Hsl on the unrounded values: the doubled lightness
      plus the rescaled saturation is twice v, and the rescaled saturation is
      v times s. */
  lemma HslInverseArithmetic(s: real, v: real)
    requires 0.0 <= s <= 1.0 && 0.0 < v <= 1.0
    requires 1.0 - Abs(2.0 * Lightness(s, v) - 1.0) != 0.0
    ensures var l := Lightness(s, v);
            var den := 1.0 - Abs(2.0 * l - 1.0);
            ScaledSaturation(v * s / den, 2.0 * l) == v * s &&
            2.0 * l + v * s == 2.0 * v
  {
    var l := Lightness(s, v);
    var den := 1.0 - Abs(2.0 * l - 1.0);
    var q := v * s / den;
    assert q * den == v * s;
    if 2.0 * l <= 1.0 {
      assert den == 2.0 * l;
      assert ScaledSaturation(q, 2.0 * l) == q * (2.0 * l);
    } else {
      assert den == 2.0 - 2.0 * l;
      assert ScaledSaturation(q, 2.0 * l) == q * (2.0 - 2.0 * l);
    }
  }

  /** Rounding a whole number leaves it as it is. */
  lemma RoundWhole(x: real)
    requires IsWholeReal(x)
    ensures RoundNum(x) == Num(x)
  {
    var k := x.Floor;
    var n := Round(x);
    assert k as real - 0.5 < n as real <= k as real + 0.5;
    assert k - 1 < n < k + 1;
  }

  /** hsv2Hsl's saturation before rounding, as a fraction; 0 where the
      denominator vanishes (the `|| 0` fallback). */
  function ExactHslSaturation(s: real, v: real): real {
    var den := 1.0 - Abs(2.0 * Lightness(s, v) - 1.0);
    if den != 0.0 then v * s / den else 0.0
  }

  /** Without rounding, hsv2Hsl gives the unrounded percentages. */
  lemma HsvToHslWhenExact(h: Val, s: real, v: real)
    requires 0.0 <= s <= 100.0 && 0.0 <= v <= 100.0
    requires HslExact(s / 100.0, v / 100.0)
    ensures HsvToHsl(Hsv(h, Num(s), Num(v)))
         == Hsl(h, Num(ExactHslSaturation(s / 100.0, v / 100.0) * 100.0), Num(Lightness(s / 100.0, v / 100.0) * 100.0))
  {
    var s', v' := s / 100.0, v / 100.0;
    var l := Lightness(s', v');
    var den := 1.0 - Abs(2.0 * l - 1.0);
    RoundWhole(l * 100.0);
    if den != 0.0 {
      RoundWhole(v' * s' / den * 100.0);
    } else {
      UnitProduct(v', s');
      assert v' * s' == 0.0 || HslSaturation(s', v') == NaN;
    }
  }

  /** When v is positive the denominator of hsv2Hsl's saturation vanishes
      only for white. */
  lemma VanishingDenominator(s: real, v: real)
    requires 0.0 <= s <= 1.0 && 0.0 < v <= 1.0
    requires 1.0 - Abs(2.0 * Lightness(s, v) - 1.0) == 0.0
    ensures v == 1.0 && s == 0.0
  {
    var l := Lightness(s, v);
    LightnessInUnit(s, v);
    assert l == 0.0 || l == 1.0;
    UnitProduct(v, 1.0 - s / 2.0);
    assert l == v * (1.0 - s / 2.0);
    if l == 0.0 {
      assert v * (1.0 - s / 2.0) == 0.0;
      MulNonneg(v, 1.0 - s / 2.0 - 0.5);
      assert false;
    }
  }

  /** hsl2Hsv reads back a normalised saturation s and value v from
      percentages whose doubled lightness and rescaled saturation are 2v - vs
      and vs. */
  lemma HslToHsvFromParts(h: Val, a: real, b: real, s: real, v: real)
    requires v > 0.0
    requires ScaledSaturation(a / 100.0, 2.0 * (b / 100.0)) == v * s
    requires 2.0 * (b / 100.0) + v * s == 2.0 * v
    ensures HslToHsv(Hsl(h, Num(a), Num(b))) == Hsv(h, RoundNum(s * 100.0), RoundNum(v * 100.0))
  {
    var L := 2.0 * (b / 100.0);
    var S := ScaledSaturation(a / 100.0, L);
    var d := L + S;
    assert d == 2.0 * v && d > 0.0;
    assert 2.0 * S == s * d;
    assert (s * d) / d == s;
    assert 2.0 * S / d * 100.0 == s * 100.0;
    assert d / 2.0 * 100.0 == v * 100.0;
  }

  /** hsl2Hsv on the unrounded percentages gives back s and v. */
  lemma HslToHsvOfExact(h: Val, s: real, v: real)
    requires 0.0 <= s <= 100.0 && 0.0 < v <= 100.0
    ensures var s', v' := s / 100.0, v / 100.0;
      HslToHsv(Hsl(h, Num(ExactHslSaturation(s', v') * 100.0), Num(Lightness(s', v') * 100.0)))
        == Hsv(h, RoundNum(s), RoundNum(v))
  {
    var s', v' := s / 100.0, v / 100.0;
    var l := Lightness(s', v');
    var den := 1.0 - Abs(2.0 * l - 1.0);
    var q := ExactHslSaturation(s', v');
    assert q * 100.0 / 100.0 == q && l * 100.0 / 100.0 == l;
    if den != 0.0 {
      HslInverseArithmetic(s', v');
    } else {
      VanishingDenominator(s', v');
      assert q == 0.0 && l == 1.0;
    }
    HslToHsvFromParts(h, q * 100.0, l * 100.0, s', v');
    assert s' * 100.0 == s && v' * 100.0 == v;
  }

  /** Where hsv2Hsl does not round, hsl2Hsv inverts it: whole s and v in
      [0, 100] with v > 0 come back exactly. (Gray colours and the fully
      saturated, full-value hues are such inputs.) */
  lemma HsvHslRoundTrip(h: Val, s: real, v: real)
    requires 0.0 <= s <= 100.0 && 0.0 < v <= 100.0
    requires IsWholeReal(s) && IsWholeReal(v)
    requires HslExact(s / 100.0, v / 100.0)
    ensures HslToHsv(HsvToHsl(Hsv(h, Num(s), Num(v)))) == Hsv(h, Num(s), Num(v))
  {
    HsvToHslWhenExact(h, s, v);
    HslToHsvOfExact(h, s, v);
    RoundWhole(s);
    RoundWhole(v);
  }

  /** At v = 0 (black) the round trip loses the saturation: hsv2Hsl gives
      lightness 0, and hsl2Hsv divides 0 by 0. */
  lemma HsvHslRoundTripBlack(h: Val, s: real)
    requires 0.0 <= s <= 100.0
    ensures HslToHsv(HsvToHsl(Hsv(h, Num(s), Num(0.0)))) == Hsv(h, NaN, Num(0.0))
  {
    assert Lightness(s / 100.0, 0.0) == 0.0;
  }

  /** rgb2Hsv on any record: byte-range numbers give h in [0, 360] and s, v
      in [0, 100]; anything else poisons all three. */
  lemma RgbToHsvOnRecord(c: Rgb<Val>)
    ensures var r := RgbToHsv(c);
      (c.r.Num? && c.g.Num? && c.b.Num? &&
       0.0 <= c.r.x <= 255.0 && 0.0 <= c.g.x <= 255.0 && 0.0 <= c.b.x <= 255.0 ==>
         0.0 <= r.h.x <= 360.0 && 0.0 <= r.s.x <= 100.0 && 0.0 <= r.v.x <= 100.0)
  {
    if c.r.Num? && c.g.Num? && c.b.Num? &&
       0.0 <= c.r.x <= 255.0 && 0.0 <= c.g.x <= 255.0 && 0.0 <= c.b.x <= 255.0 {
      RgbToHsvInRange(c.r.x, c.g.x, c.b.x);
    }
  }

  /** hsl2Hsv on any record: in-range numbers give v in [0, 100] and s in
      [0, 100], or NaN for black. */
  lemma HslToHsvOnRecord(c: Hsl<Val>)
    ensures var r := HslToHsv(c);
      (c.s.Num? && c.l.Num? && 0.0 <= c.s.x <= 100.0 && 0.0 <= c.l.x <= 100.0 ==>
         r.v.Num? && 0.0 <= r.v.x <= 100.0 &&
         (r.s.Num? <==> c.l.x > 0.0) && (r.s.Num? ==> 0.0 <= r.s.x <= 100.0))
  {
    if c.s.Num? && c.l.Num? && 0.0 <= c.s.x <= 100.0 && 0.0 <= c.l.x <= 100.0 {
      HslToHsvInRange(c.h, c.s.x, c.l.x);
    }
  }

  /** hsv2Hsl on saturation and value in [0, 100] gives saturation and
      lightness in [0, 100]. */
  lemma HsvToHslInRange(h: Val, s: real, v: real)
    requires 0.0 <= s <= 100.0 && 0.0 <= v <= 100.0
    ensures var c := HsvToHsl(Hsv(h, Num(s), Num(v)));
      && c.s.Num? && 0.0 <= c.s.x <= 100.0
      && c.l.Num? && 0.0 <= c.l.x <= 100.0
  {
    var s', v' := s / 100.0, v / 100.0;
    HslSaturationInRange(s', v');
    LightnessInUnit(s', v');
    RoundKeepsRange(Lightness(s', v') * 100.0, 0, 100);
  }
}

=== FILE: text.dfy ===
/** The text codec of src/modules/color.js: rgb2Str and hsl2Str, the generic
    parser parseColorStr and its two specialisations parseRgbStr and
    parseHslStr. */
module Text {
  import opened Channels
  import opened Wrappers
  import Kernel

  // ---------------------------------------------------------------------------
  // Decimal numerals

  predicate IsDigit(c: char) {
    '0' <= c <= '9'
  }

  predicate AllDigits(s: string) {
    forall i :: 0 <= i < |s| ==> IsDigit(s[i])
  }

  function DigitChar(d: nat): (c: char)
    requires d < 10
    ensures IsDigit(c)
  {
    ('0' as int + d) as char
  }

  /** The number a string of decimal digits denotes (what parseInt returns
      for it). */
  function DecValue(s: string): nat
    requires AllDigits(s)
  {
    if |s| == 0 then 0 else DecValue(s[..|s| - 1]) * 10 + (s[|s| - 1] as int - '0' as int)
  }

  /** The decimal numeral JavaScript writes for a natural number. */
  function NatText(n: nat): (s: string)
    ensures |s| >= 1 && AllDigits(s)
    decreases n
  {
    if n < 10 then [DigitChar(n)] else NatText(n / 10) + [DigitChar(n % 10)]
  }

  lemma {:induction false} NatTextValue(n: nat)
    ensures DecValue(NatText(n)) == n
    decreases n
  {
    if n >= 10 {
      var s := NatText(n);
      assert s[..|s| - 1] == NatText(n / 10);
      NatTextValue(n / 10);
    }
  }

  /** s with zeros prepended up to length k. */
  function LeftPad(s: string, k: nat): (r: string)
    requires AllDigits(s)
    ensures AllDigits(r) && |r| >= |s|
    decreases k - |s|
  {
    if |s| >= k then s else LeftPad("0" + s, k)
  }

  /** The first 20 decimals of a fraction in [0, 1). */
  function FracDigits(f: real): (s: string)
    requires 0.0 <= f < 1.0
    ensures AllDigits(s)
  {
    var m := (f * 100_000_000_000_000_000_000.0).Floor;
    LeftPad(NatText(m), 20)
  }

  function DropTrailingZeros(s: string): (r: string)
    requires AllDigits(s)
    ensures AllDigits(r)
  {
    if |s| > 0 && s[|s| - 1] == '0' then DropTrailingZeros(s[..|s| - 1]) else s
  }

  predicate IsAlphaChar(c: char) {
    IsDigit(c) || c == '.'
  }

  predicate AllAlpha(s: string) {
    forall i :: 0 <= i < |s| ==> IsAlphaChar(s[i])
  }

  /** A non-negative number as JavaScript writes it: whole numbers below
      10^21 as plain numerals, other numbers with at most 20 decimals.
      JavaScript switches to exponent notation from 10^21 on and writes the
      shortest digits that read back; neither is modelled. */
  function NonnegText(x: real): (s: string)
    requires x >= 0.0
    ensures |s| >= 1 && IsDigit(s[0]) && AllAlpha(s)
    ensures IsWholeReal(x) ==> s == NatText(x.Floor)
  {
    if IsWholeReal(x) then NatText(x.Floor) else FracText(x)
  }

  /** A non-negative number with a fractional part: its whole part, a dot,
      and its decimals without trailing zeros. */
  function FracText(x: real): (s: string)
    requires x >= 0.0
    ensures |s| >= 1 && IsDigit(s[0]) && AllAlpha(s)
  {
    var n := x.Floor;
    NatText(n) + "." + DropTrailingZeros(FracDigits(x - n as real))
  }

  /** The minus sign JavaScript writes before a negative number. */
  function Sign(x: real): string {
    if x < 0.0 then "-" else ""
  }

  /** String concatenation of a channel value: `"" + v`. A number's text
      starts with a minus sign exactly when it is negative, and otherwise
      with a digit. */
  function Show(a: Val): (s: string)
    ensures a.Num? ==> |s| >= 1 && (s[0] == '-' <==> a.x < 0.0) && (a.x >= 0.0 ==> IsDigit(s[0]))
  {
    match a
    case Undef => "undefined"
    case NaN => "NaN"
    case Num(x) => Sign(x) + NonnegText(Kernel.Abs(x))
  }

  // ---------------------------------------------------------------------------
  // Formatting

  /** The `", " + a` suffix written only for a truthy alpha. */
  function AlphaSuffix(a: Val): (s: string)
    ensures Truthy(a) ==> s == ", " + Show(a)
    ensures !Truthy(a) ==> s == ""
  {
    if Truthy(a) then ", " + Show(a) else ""
  }

  /** The function name: `base`, with an 'a' appended when the alpha is truthy. */
  function NameOf(base: string, a: Val): (s: string)
    ensures Truthy(a) ==> s == base + "a"
    ensures !Truthy(a) ==> s == base
  {
    base + (if Truthy(a) then "a" else "")
  }

  /** The text between the parentheses of rgb2Str. */
  function RgbInner(c: Rgb<Val>, a: Val): string {
    Show(c.r) + (", " + (Show(c.g) + (", " + (Show(c.b) + AlphaSuffix(a)))))
  }

  /** The text between the parentheses of hsl2Str. */
  function HslInner(c: Hsl<Val>, a: Val): string {
    Show(c.h) + (", " + (Show(c.s) + ("%, " + (Show(c.l) + ("%" + AlphaSuffix(a))))))
  }

  /** rgb2Str: `rgb(r, g, b)`, or `rgba(r, g, b, a)` when the alpha is
      truthy (so an alpha of 0 is dropped). */
  function RgbToStr(c: Rgb<Val>, a: Val): (s: string)
    ensures |s| > 4 && s[..3] == "rgb" && s[|s| - 1] == ')'
    ensures s[3] == 'a' <==> Truthy(a)
  {
    NameOf("rgb", a) + ("(" + (RgbInner(c, a) + ")"))
  }

  /** hsl2Str: `hsl(h, s%, l%)`, or `hsla(h, s%, l%, a)` when the alpha is
      truthy. */
  function HslToStr(c: Hsl<Val>, a: Val): (s: string)
    ensures |s| > 4 && s[..3] == "hsl" && s[|s| - 1] == ')'
    ensures s[3] == 'a' <==> Truthy(a)
  {
    NameOf("hsl", a) + ("(" + (HslInner(c, a) + ")"))
  }

  predicate EndsWith(s: string, t: string) {
    |s| >= |t| && s[|s| - |t|..] == t
  }

  lemma EndsWithAfterPrefix(x: string, y: string, t: string)
    requires EndsWith(y, t)
    ensures EndsWith(x + y, t)
  {
    assert (x + y)[|x + y| - |t|..] == y[|y| - |t|..];
  }

  lemma EndsWithExtended(x: string, t: string, y: string)
    requires EndsWith(x, t)
    ensures EndsWith(x + y, t + y)
  {
    assert (x + y)[|x + y| - |t + y|..] == x[|x| - |t|..] + y;
  }

  /** The alpha is written exactly when it is truthy: a falsy alpha (0,
      NaN, undefined) gives the same text as no alpha at all, and a truthy
      one ends the text with `, a)`. */
  lemma AlphaWrittenIffTruthy(c: Rgb<Val>, h: Hsl<Val>, a: Val)
    ensures !Truthy(a) ==> RgbToStr(c, a) == RgbToStr(c, Undef) && HslToStr(h, a) == HslToStr(h, Undef)
    ensures Truthy(a) ==> EndsWith(RgbToStr(c, a), ", " + Show(a) + ")")
    ensures Truthy(a) ==> EndsWith(HslToStr(h, a), ", " + Show(a) + ")")
  {
    if Truthy(a) {
      var t := AlphaSuffix(a);
      assert t + ")" == ", " + Show(a) + ")";
      assert EndsWith(t, t);
      EndsWithAfterPrefix(Show(c.b), t, t);
      EndsWithAfterPrefix(", ", Show(c.b) + t, t);
      EndsWithAfterPrefix(Show(c.g), ", " + (Show(c.b) + t), t);
      EndsWithAfterPrefix(", ", Show(c.g) + (", " + (Show(c.b) + t)), t);
      EndsWithAfterPrefix(Show(c.r), ", " + (Show(c.g) + (", " + (Show(c.b) + t))), t);
      EndsWithExtended(RgbInner(c, a), t, ")");
      EndsWithAfterPrefix("(", RgbInner(c, a) + ")", t + ")");
      EndsWithAfterPrefix(NameOf("rgb", a), "(" + (RgbInner(c, a) + ")"), t + ")");

      EndsWithAfterPrefix("%", t, t);
      EndsWithAfterPrefix(Show(h.l), "%" + t, t);
      EndsWithAfterPrefix("%, ", Show(h.l) + ("%" + t), t);
      EndsWithAfterPrefix(Show(h.s), "%, " + (Show(h.l) + ("%" + t)), t);
      EndsWithAfterPrefix(", ", Show(h.s) + ("%, " + (Show(h.l) + ("%" + t))), t);
      EndsWithAfterPrefix(Show(h.h), ", " + (Show(h.s) + ("%, " + (Show(h.l) + ("%" + t)))), t);
      EndsWithExtended(HslInner(h, a), t, ")");
      EndsWithAfterPrefix("(", HslInner(h, a) + ")", t + ")");
      EndsWithAfterPrefix(NameOf("hsl", a), "(" + (HslInner(h, a) + ")"), t + ")");
    }
  }

  // ---------------------------------------------------------------------------
  // Parsing

  /** A character the regex class `\s` matches: the WhiteSpace and
      LineTerminator characters of ECMAScript (section 12.2 and 12.3 of
      ECMA-262). */
  predicate IsSpace(c: char) {
    c == ' ' || c == '\t' || c == '\n' || c == '\r' || c == '\U{000B}' || c == '\U{000C}'
    || c == '\U{00A0}' || c == '\U{1680}' || '\U{2000}' <= c <= '\U{200A}'
    || c == '\U{2028}' || c == '\U{2029}' || c == '\U{202F}' || c == '\U{205F}'
    || c == '\U{3000}' || c == '\U{FEFF}'
  }

  /** The length of the longest prefix of decimal digits. */
  function LeadingDigits(s: string): (k: nat)
    ensures k <= |s|
    ensures forall i :: 0 <= i < k ==> IsDigit(s[i])
    ensures k < |s| ==> !IsDigit(s[k])
  {
    if |s| == 0 || !IsDigit(s[0]) then 0 else 1 + LeadingDigits(s[1..])
  }

  /** The length of the longest prefix of non-digits. */
  function LeadingNonDigits(s: string): (k: nat)
    ensures k <= |s|
    ensures forall i :: 0 <= i < k ==> !IsDigit(s[i])
    ensures k < |s| ==> IsDigit(s[k])
  {
    if |s| == 0 || IsDigit(s[0]) then 0 else 1 + LeadingNonDigits(s[1..])
  }

  /** A percentage of max: `val / 100 * max`. */
  function Percent(v: real, max: real): real {
    v / 100.0 * max
  }

  /** One `(\d+)(%?)` group: the number parseInt reads, scaled to
      `val / 100 * max` when a '%' follows it; and the text after it. */
  function Number(s: string, max: real): (r: Option<(real, string)>)
    ensures r.Some? ==> |r.value.1| < |s|
  {
    var k := LeadingDigits(s);
    if k == 0 then None
    else
      var n := DecValue(s[..k]) as real;
      if k < |s| && s[k] == '%' then Some((Percent(n, max), s[k + 1..]))
      else Some((n, s[k..]))
  }

  /** One `(?:\D+?)` between two numbers: as the next group needs a digit,
      the lazy run stretches over every non-digit up to it. */
  function Separator(s: string): Option<string> {
    var k := LeadingNonDigits(s);
    if k == 0 then None else Some(s[k..])
  }

  /** The shortest non-empty run of non-digits, starting at length k or
      more, after which only alpha characters remain. */
  function SplitFrom(r: string, k: nat): (o: Option<nat>)
    requires 1 <= k
    ensures o.Some? ==> k <= o.value <= |r| && AllAlpha(r[o.value..])
    decreases |r| - k
  {
    if k > |r| || IsDigit(r[k - 1]) then None
    else if AllAlpha(r[k..]) then Some(k)
    else SplitFrom(r, k + 1)
  }

  /** The tail `(?:\D+?)?([0-9\.]+?)?\)` of the regex on the text r before
      the closing parenthesis: the optional separator is tried first, at its
      shortest, then left out; what remains must be the alpha group. */
  function AlphaGroup(r: string): (o: Option<string>)
    ensures o.Some? ==> AllAlpha(o.value)
  {
    match SplitFrom(r, 1)
    case Some(k) => Some(r[k..])
    case None => if AllAlpha(r) then Some(r) else None
  }

  function Pow10(k: nat): (p: nat)
    ensures p >= 1
  {
    if k == 0 then 1 else 10 * Pow10(k - 1)
  }

  /** parseFloat on a string of digits and dots: the longest prefix of the
      form `digits[.digits]` with at least one digit, or NaN (None). */
  function ParseFloat(s: string): (r: Option<real>)
    ensures r.Some? <==> (|s| > 0 && IsDigit(s[0])) || (|s| > 1 && s[0] == '.' && IsDigit(s[1]))
    ensures r.Some? ==> r.value >= 0.0
  {
    var k := LeadingDigits(s);
    var whole := DecValue(s[..k]) as real;
    if k < |s| && s[k] == '.' then
      var rest := s[k + 1..];
      var m := LeadingDigits(rest);
      if k == 0 && m == 0 then None
      else Some(whole + DecValue(rest[..m]) as real / Pow10(m) as real)
    else if k == 0 then None
    else Some(whole)
  }

  /** `parseFloat(parsed[8]) || undefined`. */
  function AlphaValue(s: string): (a: Val)
    ensures a == Undef || Truthy(a)
  {
    match ParseFloat(s)
    case Some(x) => if x != 0.0 then Num(x) else Undef
    case None => Undef
  }

  /** The array parseColorStr returns: the function name, three channel
      values and the alpha (a truthy number or undefined). */
  datatype Parsed = Parsed(name: string, v1: real, v2: real, v3: real, alpha: Val)

  /** parseColorStr: reads `name(n1[%] n2[%] n3[%] [alpha])`, the separators
      being any non-digits, scaling a '%' value to `val / 100 * max`. None is
      the regex not matching, after which the source throws. The strings
      read are those where the name (no whitespace) starts the text, there is
      one '(', the ')' ends the text and is the first after the third number. */
  function ParseColorStr(str: string, max1: real, max2: real, max3: real): (r: Option<Parsed>)
    ensures r.Some? ==> r.value.alpha == Undef || Truthy(r.value.alpha)
    ensures r.Some? ==> |r.value.name| > 0 && '(' !in r.value.name && r.value.name <= str
    ensures r.Some? ==> forall i :: 0 <= i < |r.value.name| ==> !IsSpace(r.value.name[i])
  {
    if '(' !in str then None else
    var k := IndexOf(str, '(');
    var name := str[..k];
    var body := str[k + 1..];
    if k == 0 || (exists i :: 0 <= i < k && IsSpace(name[i])) || '(' in body then None
    else if |body| == 0 || body[|body| - 1] != ')' then None
    else ParseChannels(name, body[..|body| - 1], max1, max2, max3)
  }

  /** The part of parseColorStr inside the parentheses: three numbers, the
      separators between them, and the optional alpha tail. */
  function ParseChannels(name: string, inner: string, max1: real, max2: real, max3: real): (r: Option<Parsed>)
    ensures r.Some? ==> r.value.name == name
    ensures r.Some? ==> r.value.alpha == Undef || Truthy(r.value.alpha)
  {
    var n1 :- Number(inner, max1);
    var s1 :- Separator(n1.1);
    var n2 :- Number(s1, max2);
    var s2 :- Separator(n2.1);
    var n3 :- Number(s2, max3);
    if ')' in n3.1 then None
    else
      var a :- AlphaGroup(n3.1);
      Some(Parsed(name, n1.0, n2.0, n3.0, AlphaValue(a)))
  }

  /** parseRgbStr: the three numbers, with maximum 255 each. The alpha is
      dropped. */
  function ParseRgbStr(str: string): (r: Option<Rgb<Val>>)
    ensures r.Some? <==> ParseColorStr(str, 255.0, 255.0, 255.0).Some?
    ensures r.Some? ==> var p := ParseColorStr(str, 255.0, 255.0, 255.0).value;
                        r.value == Rgb(Num(p.v1), Num(p.v2), Num(p.v3))
  {
    var p :- ParseColorStr(str, 255.0, 255.0, 255.0);
    Some(Rgb(Num(p.v1), Num(p.v2), Num(p.v3)))
  }

  /** parseHslStr as written: slots 2, 3 and 4 of the parsed array, which
      are the second number, the third number and the alpha. */
  function ParseHslStr(str: string): (r: Option<Hsl<Val>>)
    ensures r.Some? ==> r.value.h.Num? && r.value.s.Num?
  {
    var p :- ParseColorStr(str, 360.0, 100.0, 100.0);
    Some(Hsl(Num(p.v2), Num(p.v3), p.alpha))
  }

  /** parseHslStr as evidently intended: slots 1, 2 and 3, the three numbers. */
  function ParseHslStrFixed(str: string): (r: Option<Hsl<Val>>)
    ensures r.Some? ==> r.value.h.Num? && r.value.s.Num? && r.value.l.Num?
  {
    var p :- ParseColorStr(str, 360.0, 100.0, 100.0);
    Some(Hsl(Num(p.v1), Num(p.v2), Num(p.v3)))
  }

  // ---------------------------------------------------------------------------
  // Reading back what the formatters write

  predicate NoDigits(s: string) {
    forall i :: 0 <= i < |s| ==> !IsDigit(s[i])
  }

  /** The text after an optional leading '%'. */
  function AfterPct(s: string): string {
    if |s| > 0 && s[0] == '%' then s[1..] else s
  }

  /** A separator the parser skips between two numbers: an optional '%'
      and then at least one non-digit. */
  predicate IsSep(s: string) {
    |AfterPct(s)| > 0 && NoDigits(AfterPct(s))
  }

  /** The value a number n followed by the text s is read as. */
  function Scaled(n: nat, s: string, max: real): real {
    if |s| > 0 && s[0] == '%' then Percent(n as real, max) else n as real
  }

  /** A non-negative whole number, which Show writes as a plain numeral. */
  predicate IsWhole(v: Val) {
    IsWholeNum(v) && v.x >= 0.0
  }

  lemma ShowWhole(v: Val)
    requires IsWhole(v)
    ensures Show(v) == NatText(v.x.Floor)
  {
    assert Show(v) == "" + NatText(v.x.Floor);
  }

  /** parseFloat reads the text of a whole non-negative number back as that
      number, and finds no number in the text of `undefined` or NaN. */
  lemma ShowParseFloat(v: Val)
    ensures IsWhole(v) ==> ParseFloat(Show(v)) == Some(v.x)
    ensures !v.Num? ==> ParseFloat(Show(v)).None?
  {
    if IsWhole(v) {
      ShowWhole(v);
      ParseFloatNatText(v.x.Floor);
    }
  }

  lemma {:induction false} LeadingDigitsConcat(x: string, y: string)
    requires AllDigits(x)
    requires |y| == 0 || !IsDigit(y[0])
    ensures LeadingDigits(x + y) == |x|
    decreases |x|
  {
    if |x| > 0 {
      assert (x + y)[1..] == x[1..] + y;
      LeadingDigitsConcat(x[1..], y);
    } else {
      assert x + y == y;
    }
  }

  lemma {:induction false} LeadingNonDigitsConcat(x: string, y: string)
    requires NoDigits(x)
    requires |y| > 0 && IsDigit(y[0])
    ensures LeadingNonDigits(x + y) == |x|
    decreases |x|
  {
    if |x| > 0 {
      assert (x + y)[1..] == x[1..] + y;
      LeadingNonDigitsConcat(x[1..], y);
    } else {
      assert x + y == y;
    }
  }

  /** A numeral followed by a non-digit reads back as its value, scaled when
      a '%' follows it. */
  lemma NumberReads(n: nat, rest: string, max: real)
    requires |rest| == 0 || !IsDigit(rest[0])
    ensures Number(NatText(n) + rest, max) == Some((Scaled(n, rest, max), AfterPct(rest)))
  {
    var d := NatText(n);
    var s := d + rest;
    LeadingDigitsConcat(d, rest);
    assert s[..|d|] == d;
    NatTextValue(n);
    var k := LeadingDigits(s);
    assert k == |d| && DecValue(s[..k]) == n;
    var r := Number(s, max);
    if |rest| > 0 && rest[0] == '%' {
      assert s[k] == '%';
      assert s[k + 1..] == rest[1..];
      assert r == Some((Percent(n as real, max), rest[1..]));
      assert r.value.0 == Scaled(n, rest, max);
      assert r.value.1 == AfterPct(rest);
    } else {
      if |rest| > 0 {
        assert s[k] == rest[0];
      }
      assert s[k..] == rest;
      assert r == Some((n as real, rest));
      assert r.value.0 == Scaled(n, rest, max);
      assert r.value.1 == AfterPct(rest);
    }
  }

  /** A numeral and a separator read as the number, and leave the text of the
      next number. */
  lemma NumberThenSeparator(n: nat, s: string, x: string, max: real)
    requires IsSep(s)
    requires |x| > 0 && IsDigit(x[0])
    ensures Number(NatText(n) + (s + x), max) == Some((Scaled(n, s, max), AfterPct(s) + x))
    ensures Separator(AfterPct(s) + x) == Some(x)
  {
    assert (s + x)[0] == s[0];
    NumberReads(n, s + x, max);
    if s[0] == '%' {
      assert (s + x)[1..] == s[1..] + x;
    }
    LeadingNonDigitsConcat(AfterPct(s), x);
    assert (AfterPct(s) + x)[|AfterPct(s)|..] == x;
  }

  /** The inside of a formatted string parses back into its three numbers
      and its alpha tail. */
  lemma ReadChannels(name: string, n1: nat, s1: string, n2: nat, s2: string, n3: nat, t: string,
                     max1: real, max2: real, max3: real)
    requires IsSep(s1) && IsSep(s2)
    requires |t| == 0 || !IsDigit(t[0])
    requires ')' !in AfterPct(t) && AlphaGroup(AfterPct(t)).Some?
    ensures ParseChannels(name, NatText(n1) + (s1 + (NatText(n2) + (s2 + (NatText(n3) + t)))), max1, max2, max3)
         == Some(Parsed(name, Scaled(n1, s1, max1), Scaled(n2, s2, max2), Scaled(n3, t, max3),
                        AlphaValue(AlphaGroup(AfterPct(t)).value)))
  {
    var x3 := NatText(n3) + t;
    var x2 := NatText(n2) + (s2 + x3);
    NumberThenSeparator(n1, s1, x2, max1);
    NumberThenSeparator(n2, s2, x3, max2);
    NumberReads(n3, t, max3);
  }

  lemma NoParenInDigits(s: string)
    requires AllAlpha(s)
    ensures '(' !in s && ')' !in s
  {
  }

  predicate NoAlpha(s: string) {
    forall i :: 0 <= i < |s| ==> !IsAlphaChar(s[i])
  }

  /** After a run of characters that are neither digits nor dots, the
      shortest split the alpha tail allows is right after that run. */
  lemma {:induction false} SplitAfterRun(p: string, d: string, k: nat)
    requires 1 <= k <= |p|
    requires NoAlpha(p) && AllAlpha(d)
    ensures SplitFrom(p + d, k) == Some(|p|)
    decreases |p| - k
  {
    var r := p + d;
    assert r[k - 1] == p[k - 1];
    if k < |p| {
      assert r[k..][0] == p[k];
      SplitAfterRun(p, d, k + 1);
    } else {
      assert r[k..] == d;
    }
  }

  /** The alpha tail `, a` of a truthy alpha reads as its magnitude's text. */
  lemma AlphaTailReads(a: Val)
    requires Truthy(a)
    ensures '(' !in AlphaSuffix(a) && ')' !in AlphaSuffix(a)
    ensures AlphaGroup(AlphaSuffix(a)) == Some(NonnegText(Kernel.Abs(a.x)))
  {
    var d := NonnegText(Kernel.Abs(a.x));
    NoParenInDigits(d);
    var p := ", " + Sign(a.x);
    AlphaSuffixShape(a);
    SignPrefixNoAlpha(a.x);
    SplitAfterRun(p, d, 1);
    assert (p + d)[|p|..] == d;
  }

  /** The separator and sign before the alpha's digits hold no digit or dot. */
  lemma SignPrefixNoAlpha(x: real)
    ensures NoAlpha(", " + Sign(x))
  {
    if x < 0.0 {
      assert ", " + Sign(x) == [',', ' ', '-'];
    } else {
      assert ", " + Sign(x) == [',', ' '];
    }
  }

  /** The alpha tail of a truthy alpha: a comma, a space, the sign of a
      negative alpha, and the digits of its magnitude. */
  lemma AlphaSuffixShape(a: Val)
    requires Truthy(a)
    ensures AlphaSuffix(a) == (", " + Sign(a.x)) + NonnegText(Kernel.Abs(a.x))
  {
    var d := NonnegText(Kernel.Abs(a.x));
    assert Show(a) == Sign(a.x) + d;
    ConcatAssoc(", ", Sign(a.x), d);
  }

  lemma ConcatAssoc(x: string, y: string, z: string)
    ensures x + (y + z) == (x + y) + z
  {
  }

  /** parseFloat reads a string of digits alone as its decimal value. */
  lemma ParseFloatDigits(s: string)
    requires |s| > 0 && AllDigits(s)
    ensures ParseFloat(s) == Some(DecValue(s) as real)
  {
    assert LeadingDigits(s) == |s|;
    assert s[..|s|] == s;
  }

  /** parseFloat reads a whole numeral back as its value. */
  lemma ParseFloatNatText(n: nat)
    ensures ParseFloat(NatText(n)) == Some(n as real)
  {
    var d := NatText(n);
    LeadingDigitsConcat(d, "");
    assert d + "" == d;
    assert d[..|d|] == d;
    NatTextValue(n);
  }

  lemma NumeralNoParen(n: nat)
    ensures '(' !in NatText(n) && ')' !in NatText(n)
  {
    var d := NatText(n);
    assert AllAlpha(d) by {
      forall i | 0 <= i < |d| ensures IsAlphaChar(d[i]) {
        assert IsDigit(d[i]);
      }
    }
    NoParenInDigits(d);
  }

  lemma IndexOfAfter(x: string, y: string, c: char)
    requires c !in x && |y| > 0 && y[0] == c
    ensures c in x + y && IndexOf(x + y, c) == |x|
  {
    assert (x + y)[|x|] == c;
  }

  /** parseColorStr on `name(inner)` is the reading of inner, when the name
      is a run of non-blank characters other than '(' and inner holds no
      '('. */
  lemma ParseFrame(name: string, inner: string, max1: real, max2: real, max3: real)
    requires |name| > 0 && '(' !in name && '(' !in inner
    requires forall i :: 0 <= i < |name| ==> !IsSpace(name[i])
    ensures ParseColorStr(name + ("(" + (inner + ")")), max1, max2, max3)
         == ParseChannels(name, inner, max1, max2, max3)
  {
    var str := name + ("(" + (inner + ")"));
    IndexOfAfter(name, "(" + (inner + ")"), '(');
    assert str[..|name|] == name;
    var body := str[|name| + 1..];
    assert body == inner + ")";
    assert body[..|body| - 1] == inner;
    assert !(exists i :: 0 <= i < |name| && IsSpace(str[..|name|][i]));
    assert '(' !in body;
    assert |body| > 0 && body[|body| - 1] == ')';
  }

  /** Whitespace anywhere before the first '(' makes the text unreadable:
      the name is the whole run before the '(', and `(\S+)` admits none. */
  lemma SpaceBeforeParenUnreadable(name: string, rest: string, i: nat, max1: real, max2: real, max3: real)
    requires '(' !in name && i < |name| && IsSpace(name[i])
    ensures ParseColorStr(name + ("(" + rest), max1, max2, max3).None?
  {
    var str := name + ("(" + rest);
    IndexOfAfter(name, "(" + rest, '(');
    assert str[..|name|] == name;
    assert IsSpace(str[..|name|][i]);
  }

  /** A no-break space is whitespace, as it is for the regex's `\S`. In
      `x\u00A0rgb(1, 2, 3)` the text before the '(' holds one, so the model
      reports the text unreadable, where the unanchored regex would take the
      name "rgb" after the space. */
  lemma NoBreakSpaceBeforeName()
    ensures ParseColorStr("x\U{00A0}rgb" + ("(" + "1, 2, 3)"), 255.0, 255.0, 255.0).None?
  {
    SpaceBeforeParenUnreadable("x\U{00A0}rgb", "1, 2, 3)", 1, 255.0, 255.0, 255.0);
  }

  /** The function names rgb2Str and hsl2Str write are what the parser
      accepts as a name. */
  lemma NameAccepted(base: string, a: Val)
    requires base == "rgb" || base == "hsl"
    ensures |NameOf(base, a)| > 0 && '(' !in NameOf(base, a)
    ensures forall i :: 0 <= i < |NameOf(base, a)| ==> !IsSpace(NameOf(base, a)[i])
  {
    var n := NameOf(base, a);
    assert n == base || n == base + "a";
    forall i | 0 <= i < |n| ensures !IsSpace(n[i]) && n[i] != '(' {
      assert n[i] == 'r' || n[i] == 'g' || n[i] == 'b' || n[i] == 'h' || n[i] == 's' || n[i] == 'l' || n[i] == 'a';
    }
  }

  /** The text a falsy alpha leaves after the third number reads as no alpha. */
  lemma EmptyAlphaGroup()
    ensures AlphaGroup("") == Some("") && AlphaValue("") == Undef
  {
  }

  /** A whole positive alpha is read back as itself. */
  lemma WholeAlphaReads(a: Val)
    requires IsWhole(a) && a.x > 0.0
    ensures AlphaValue(NonnegText(a.x)) == a
  {
    ParseFloatNatText(a.x.Floor);
  }

  /** The value parseColorStr reads for the alpha `rgb2Str` or `hsl2Str`
      writes: its magnitude when truthy, else undefined. */
  function AlphaRead(a: Val): Val {
    if Truthy(a) then AlphaValue(NonnegText(Kernel.Abs(a.x))) else Undef
  }

  lemma AlphaTail(a: Val)
    ensures '(' !in AlphaSuffix(a) && ')' !in AlphaSuffix(a)
    ensures |AlphaSuffix(a)| == 0 || !IsDigit(AlphaSuffix(a)[0])
    ensures AlphaGroup(AlphaSuffix(a)).Some?
    ensures AlphaValue(AlphaGroup(AlphaSuffix(a)).value) == AlphaRead(a)
  {
    if Truthy(a) {
      AlphaTailReads(a);
    } else {
      EmptyAlphaGroup();
    }
  }

  /** rgb2Str's inside for whole channels: three numerals, the separators
      and the alpha tail; none of it is '('. */
  lemma RgbInnerShape(c: Rgb<Val>, a: Val)
    requires IsWhole(c.r) && IsWhole(c.g) && IsWhole(c.b)
    ensures RgbInner(c, a) == NatText(c.r.x.Floor) + (", " + (NatText(c.g.x.Floor) + (", " + (NatText(c.b.x.Floor) + AlphaSuffix(a)))))
    ensures '(' !in RgbInner(c, a)
  {
    var r, g, b := NatText(c.r.x.Floor), NatText(c.g.x.Floor), NatText(c.b.x.Floor);
    var t := AlphaSuffix(a);
    assert RgbInner(c, a) == r + (", " + (g + (", " + (b + t)))) by {
      ShowWhole(c.r);
      ShowWhole(c.g);
      ShowWhole(c.b);
      AlphaTail(a);
    }
    assert '(' !in r + (", " + (g + (", " + (b + t)))) by {
      AlphaTail(a);
      NumeralNoParen(c.r.x.Floor);
      NumeralNoParen(c.g.x.Floor);
      NumeralNoParen(c.b.x.Floor);
      NoParenConcat(b, t);
      NoParenConcat(", ", b + t);
      NoParenConcat(g, ", " + (b + t));
      NoParenConcat(", ", g + (", " + (b + t)));
      NoParenConcat(r, ", " + (g + (", " + (b + t))));
    }
  }

  /** hsl2Str's inside for whole channels; none of it is '('. */
  lemma HslInnerShape(c: Hsl<Val>, a: Val)
    requires IsWhole(c.h) && IsWhole(c.s) && IsWhole(c.l)
    ensures HslInner(c, a) == NatText(c.h.x.Floor) + (", " + (NatText(c.s.x.Floor) + ("%, " + (NatText(c.l.x.Floor) + ("%" + AlphaSuffix(a))))))
    ensures '(' !in HslInner(c, a)
  {
    var h, s, l := NatText(c.h.x.Floor), NatText(c.s.x.Floor), NatText(c.l.x.Floor);
    var t := AlphaSuffix(a);
    assert HslInner(c, a) == h + (", " + (s + ("%, " + (l + ("%" + t))))) by {
      ShowWhole(c.h);
      ShowWhole(c.s);
      ShowWhole(c.l);
      AlphaTail(a);
    }
    assert '(' !in h + (", " + (s + ("%, " + (l + ("%" + t))))) by {
      AlphaTail(a);
      NumeralNoParen(c.h.x.Floor);
      NumeralNoParen(c.s.x.Floor);
      NumeralNoParen(c.l.x.Floor);
      NoParenConcat("%", t);
      NoParenConcat(l, "%" + t);
      NoParenConcat("%, ", l + ("%" + t));
      NoParenConcat(s, "%, " + (l + ("%" + t)));
      NoParenConcat(", ", s + ("%, " + (l + ("%" + t))));
      NoParenConcat(h, ", " + (s + ("%, " + (l + ("%" + t)))));
    }
  }

  lemma NoParenConcat(x: string, y: string)
    requires '(' !in x && '(' !in y
    ensures '(' !in x + y
  {
  }

  /** The inside of rgb2Str's text holds no '(' and reads back as the
      channels and the alpha. */
  lemma RgbInnerReads(name: string, c: Rgb<Val>, a: Val)
    requires IsWhole(c.r) && IsWhole(c.g) && IsWhole(c.b)
    ensures '(' !in RgbInner(c, a)
    ensures ParseChannels(name, RgbInner(c, a), 255.0, 255.0, 255.0)
         == Some(Parsed(name, c.r.x, c.g.x, c.b.x, AlphaRead(a)))
  {
    var t := AlphaSuffix(a);
    var r, g, b := c.r.x.Floor, c.g.x.Floor, c.b.x.Floor;
    RgbInnerShape(c, a);
    AlphaTail(a);
    assert AfterPct(", ") == ", ";
    assert Scaled(r, ", ", 255.0) == c.r.x && Scaled(g, ", ", 255.0) == c.g.x;
    assert Scaled(b, t, 255.0) == c.b.x;
    ReadChannels(name, r, ", ", g, ", ", b, t, 255.0, 255.0, 255.0);
  }

  /** parseColorStr reads rgb2Str's text of whole channels back: the name,
      the three channels and the alpha's magnitude. */
  lemma RgbTextReads(c: Rgb<Val>, a: Val)
    requires IsWhole(c.r) && IsWhole(c.g) && IsWhole(c.b)
    ensures ParseColorStr(RgbToStr(c, a), 255.0, 255.0, 255.0)
         == Some(Parsed(NameOf("rgb", a), c.r.x, c.g.x, c.b.x, AlphaRead(a)))
  {
    var name := NameOf("rgb", a);
    RgbInnerReads(name, c, a);
    NameAccepted("rgb", a);
    ParseFrame(name, RgbInner(c, a), 255.0, 255.0, 255.0);
  }

  /** A whole percentage of 100 reads back as itself. */
  lemma PercentOfHundred(n: nat, s: string)
    requires |s| > 0 && s[0] == '%'
    ensures Scaled(n, s, 100.0) == n as real
  {
  }

  /** The inside of hsl2Str's text holds no '(' and reads back as the
      channels and the alpha. */
  lemma HslInnerReads(name: string, c: Hsl<Val>, a: Val)
    requires IsWhole(c.h) && IsWhole(c.s) && IsWhole(c.l)
    ensures '(' !in HslInner(c, a)
    ensures ParseChannels(name, HslInner(c, a), 360.0, 100.0, 100.0)
         == Some(Parsed(name, c.h.x, c.s.x, c.l.x, AlphaRead(a)))
  {
    var t := AlphaSuffix(a);
    var h, s, l := c.h.x.Floor, c.s.x.Floor, c.l.x.Floor;
    HslInnerShape(c, a);
    AlphaTail(a);
    assert AfterPct(", ") == ", ";
    assert AfterPct("%, ") == ", ";
    assert AfterPct("%" + t) == t;
    PercentOfHundred(s, "%, ");
    PercentOfHundred(l, "%" + t);
    ReadChannels(name, h, ", ", s, "%, ", l, "%" + t, 360.0, 100.0, 100.0);
  }

  /** parseColorStr reads hsl2Str's text of whole channels back, the
      percentages scaled by 100 / 100. */
  lemma HslTextReads(c: Hsl<Val>, a: Val)
    requires IsWhole(c.h) && IsWhole(c.s) && IsWhole(c.l)
    ensures ParseColorStr(HslToStr(c, a), 360.0, 100.0, 100.0)
         == Some(Parsed(NameOf("hsl", a), c.h.x, c.s.x, c.l.x, AlphaRead(a)))
  {
    var name := NameOf("hsl", a);
    HslInnerReads(name, c, a);
    NameAccepted("hsl", a);
    ParseFrame(name, HslInner(c, a), 360.0, 100.0, 100.0);
  }

  /** parseRgbStr inverts rgb2Str on whole channels, whatever the alpha. */
  lemma RgbTextRoundTrip(c: Rgb<Val>, a: Val)
    requires IsWhole(c.r) && IsWhole(c.g) && IsWhole(c.b)
    ensures ParseRgbStr(RgbToStr(c, a)) == Some(c)
  {
    RgbTextReads(c, a);
  }

  /** The corrected parseHslStr inverts hsl2Str on whole channels. */
  lemma HslTextRoundTrip(c: Hsl<Val>, a: Val)
    requires IsWhole(c.h) && IsWhole(c.s) && IsWhole(c.l)
    ensures ParseHslStrFixed(HslToStr(c, a)) == Some(c)
  {
    HslTextReads(c, a);
  }

  /** parseHslStr as written shifts every channel by one slot: the hue reads
      the saturation, the saturation the lightness, and the lightness the
      alpha (undefined when there is none). */
  lemma ParseHslShift(c: Hsl<Val>, a: Val)
    requires IsWhole(c.h) && IsWhole(c.s) && IsWhole(c.l)
    ensures !Truthy(a) ==> ParseHslStr(HslToStr(c, a)) == Some(Hsl(c.s, c.l, Undef))
    ensures IsWhole(a) && a.x > 0.0 ==> ParseHslStr(HslToStr(c, a)) == Some(Hsl(c.s, c.l, a))
  {
    HslTextReads(c, a);
    if IsWhole(a) && a.x > 0.0 {
      WholeAlphaReads(a);
    }
  }
}

=== FILE: wrappers.dfy ===
/** The Option type used throughout the model. `None` stands for "no value":
    a string that does not parse, or an operation that would throw in JavaScript. */
module Wrappers {

  datatype Option<+T> = None | Some(value: T) {

    predicate IsFailure() {
      None?
    }

    function PropagateFailure<U>(): Option<U>
      requires None?
    {
      None
    }

    function Extract(): T
      requires Some?
    {
      value
    }
  }
}
